=== FILE: README.md ===
# Admin user management, modelled in Dafny

The application is a Spring Boot user-management service with two admin front ends.

- **REST API.** `AdminRestController`, under `/api/admin`, is driven by a single-page admin console (`static/js/admin.js`).
- **Server-rendered pages.** `AdminController`, under `/admin`, serves the HTML pages.

Both work on the `User` entity, whose fields carry Bean Validation constraints.

This project models the decision logic of these parts as pure functions over immutable data, and proves what each promises.

- **The `User` entity** (`Entity`):
  - its validation constraints, with every violation it reports;
  - the `getRolesString` label;
  - `addRole` as set insertion;
  - the authorities and the always-true account flags.
- **The user service the controllers call** (`UserStore`), as a map from id to user. A well-formedness invariant holds that map together:
  - every user is filed under its own id;
  - ids come from a counter;
  - usernames are unique.
- **The REST endpoints** (`AdminApi`): read, create, update and delete, as functions from the store and request to the status, body and new store.
- **The server-rendered handlers** (`AdminPages`): search, create, update and delete, as functions to the page shown (a view or a redirect) and the new store.
- **The admin console** (`ConsoleModel`, `ConsoleFetch`, `ConsoleSearch`, `ConsoleForm`):
  - how `fetchWithAuth` classifies a response;
  - the role label and role cell;
  - the client-side search;
  - form validation and the request body it builds;
  - POST or PUT on submit;
  - filling the form for add and edit;
  - reset and delete confirmation.
- **Shared text operations** (`Text`): the JavaScript and Java string operations the code relies on.
  - JavaScript `trim`.
  - ASCII lower-casing.
  - `includes`/`contains`.
  - JavaScript `replace`, which replaces the first occurrence.
  - Java `replace`, which replaces every occurrence.
  - `join`, and decimal rendering of ids.
- **The keyword filter** (`Search`): the generic order-preserving filter and the keyword test, shared by both search paths.

Three behaviours of the code worth noting:

- **Non-numeric age.** The console accepts an age such as "abc": validation only checks that the field is not blank (`ConsoleForm.NonNumericAgeAccepted`).
- **Server role label.** On the server, `getRolesString` removes every "ROLE", so "ROLE_ADMIN" becomes "_ADMIN" (`Entity.AdminRoleString`).
- **Console role label.** The console removes only the first "ROLE_", so the same role shows as "ADMIN" there (`ConsoleModel.RoleLabelOfPrefixed`).

## Model

| member | source | states |
|---|---|---|
| Text.Trim | src/main/resources/static/js/admin.js:398-401 | the result is an infix of the input with only white space before and after it; it starts and ends with no JavaScript white space; it is empty exactly when the input is all white space; an already-trimmed value is unchanged |
| Text.TrimIdempotent | src/main/resources/static/js/admin.js:398-401 | trimming twice is trimming once |
| Text.LowerIdempotent | src/main/resources/static/js/admin.js:437-439 | lower-casing twice is lower-casing once |
| Text.Contains | src/main/java/ru/kata/spring/boot_security/demo/controller/AdminController.java:112-114 | `contains` holds exactly when the needle occurs at some position of the haystack |
| Text.ContainsEmpty | src/main/java/ru/kata/spring/boot_security/demo/controller/AdminController.java:112-114 | every string contains the empty string |
| Text.ReplaceFirstOfPrefixed | src/main/resources/static/js/admin.js:100 | replacing the first occurrence of a prefix by "" strips exactly that prefix |
| Text.ReplaceFirstLength | src/main/resources/static/js/admin.js:262 | JavaScript `replace` changes nothing when the pattern is absent, and otherwise changes the length by one replacement |
| Text.ReplaceAllRemoves | src/main/java/ru/kata/spring/boot_security/demo/model/User.java:143 | removing every occurrence never lengthens a string, leaves it unchanged exactly when the pattern is absent, and shortens it otherwise |
| Text.ReplaceAllIsSinglePass | src/main/java/ru/kata/spring/boot_security/demo/model/User.java:143 | Java `replace` makes one left-to-right pass: "RROLEOLE" becomes "ROLE", not "" |
| Text.ReplaceAllPieces | src/main/java/ru/kata/spring/boot_security/demo/model/User.java:143 | cutting the input at its leftmost non-overlapping occurrences of the pattern, the result is the same pieces with the replacement between them |
| Text.JoinAppend | src/main/resources/static/js/admin.js:100 | `join` puts the separator between consecutive parts only |
| Text.JoinNoSeparatorConcat | src/main/java/ru/kata/spring/boot_security/demo/model/User.java:144 | `Collectors.joining()` of a concatenation is the concatenation of the joinings |
| Text.DecimalRoundTrip | src/main/resources/static/js/admin.js:223 | reading back the decimal text of a number gives the number |
| Text.NatToDecimalInjective | src/main/resources/static/js/admin.js:412 | distinct natural numbers render as distinct decimal texts |
| Text.IntToDecimalInjective | src/main/resources/static/js/admin.js:412 | distinct ids render as distinct decimal texts in template literals |
| Search.Filter | src/main/resources/static/js/admin.js:436-440 | `filter` keeps an order-preserving subsequence: an element is kept exactly when it passes the test, with its full multiplicity |
| Search.FilterIdempotent | src/main/resources/static/js/admin.js:436-440 | filtering the result again with the same test changes nothing |
| Search.FilterConcat | src/main/java/ru/kata/spring/boot_security/demo/controller/AdminController.java:111-115 | filtering a concatenation is concatenating the filtered parts |
| Search.FilterKeepsAll | src/main/java/ru/kata/spring/boot_security/demo/controller/AdminController.java:111-115 | a test every element passes keeps the whole list |
| Search.FilterCongruent | src/main/resources/static/js/admin.js:436-440 | two tests that agree everywhere select the same elements |
| Search.EmptyKeywordMatches | src/main/java/ru/kata/spring/boot_security/demo/controller/AdminController.java:112-114 | the empty keyword matches every user |
| Search.MatchesIgnoresKeywordCase | src/main/resources/static/js/admin.js:437-439 | a keyword and its lower-cased form select the same users |
| Entity.MatchesUsernamePattern | src/main/java/ru/kata/spring/boot_security/demo/model/User.java:38 | the linear matcher accepts exactly the whole-value matches of `.+@.+\..+`, with `.` excluding line terminators |
| Entity.Violations | src/main/java/ru/kata/spring/boot_security/demo/model/User.java:23-38 | each constraint message is reported exactly when its constraint fails: letters-only names, age 1..150 when present, the username pattern; none are reported exactly when the user is valid, and nothing else is reported |
| Entity.AgeBounds | src/main/java/ru/kata/spring/boot_security/demo/model/User.java:32-33 | ages 1 and 150 are accepted; 0 and 151 are rejected |
| Entity.RolesString | src/main/java/ru/kata/spring/boot_security/demo/model/User.java:141-145 | no roles give ""; the label is never longer than the names together, and is exactly as long when no name contains "ROLE" |
| Entity.RolesStringIsJoin | src/main/java/ru/kata/spring/boot_security/demo/model/User.java:141-145 | the label is the parts of the roles, each with "ROLE" removed, collected with `Collectors.joining()` |
| Entity.RolePartPieces | src/main/java/ru/kata/spring/boot_security/demo/model/User.java:141-145 | one role contributes its name with every occurrence of "ROLE", taken leftmost first without overlap, removed |
| Entity.RolesStringConcat | src/main/java/ru/kata/spring/boot_security/demo/model/User.java:141-145 | the labels are joined with no separator: the label of a concatenation of roles is the concatenated labels |
| Entity.RolesStringOfPrefixed | src/main/java/ru/kata/spring/boot_security/demo/model/User.java:141-145 | a role named "ROLE" + x, with no further "ROLE" in x, contributes x |
| Entity.AdminRoleString | src/main/java/ru/kata/spring/boot_security/demo/model/User.java:143 | "ROLE_ADMIN" contributes "_ADMIN" |
| Entity.AddRole | src/main/java/ru/kata/spring/boot_security/demo/model/User.java:138-140 | after `addRole` the role is present, no other role is added or lost, the set grows by one exactly when the role was new, and no other field changes |
| Entity.AddRoleIdempotent | src/main/java/ru/kata/spring/boot_security/demo/model/User.java:138-140 | adding a role twice is adding it once |
| Entity.Authorities | src/main/java/ru/kata/spring/boot_security/demo/model/User.java:113-116 | the granted authorities are exactly the user's roles |
| Entity.AuthoritiesFollowAddRole | src/main/java/ru/kata/spring/boot_security/demo/model/User.java:113-140 | `addRole` grants exactly one more authority, and the count grows by one when the role is new |
| Entity.Status | src/main/java/ru/kata/spring/boot_security/demo/model/User.java:118-136 | no account is ever expired, locked, credential-expired or disabled |
| UserStore.FindById | src/main/java/ru/kata/spring/boot_security/demo/controller/AdminRestController.java:36 | the lookup finds a user exactly when one is filed under the id, and returns that user |
| UserStore.OwnerLookup | src/main/java/ru/kata/spring/boot_security/demo/controller/AdminRestController.java:71-72 | with unique usernames, "owned by a user with another id" is exactly "the one owner's id differs" |
| UserStore.Save | src/main/java/ru/kata/spring/boot_security/demo/controller/AdminRestController.java:55 | a save writes one entry: a stored id is overwritten in place; any other user is inserted under a newly generated id; the saved user is the given one with that id |
| UserStore.SavePreservesGood | src/main/java/ru/kata/spring/boot_security/demo/model/User.java:36 | saving a user whose username nobody else owns keeps ids consistent and usernames unique |
| UserStore.DeleteById | src/main/java/ru/kata/spring/boot_security/demo/controller/AdminRestController.java:88 | deleting removes that key only; every other entry is unchanged |
| UserStore.DeletePreservesGood | src/main/java/ru/kata/spring/boot_security/demo/controller/AdminRestController.java:88 | deleting keeps the store well formed |
| AdminApi.GetUserById | src/main/java/ru/kata/spring/boot_security/demo/controller/AdminRestController.java:34-38 | 200 with the stored user exactly when the id is stored; 404 with no body otherwise |
| AdminApi.CreateUser | src/main/java/ru/kata/spring/boot_security/demo/controller/AdminRestController.java:45-57 | binding errors give 400 with the violations; a taken username gives 400 with the duplicate message; both leave the store unchanged; 201 exactly when valid and new, and the created user is stored under the id in the body when that id is already stored, replacing that user, and under the next generated id otherwise |
| AdminApi.UpdateUser | src/main/java/ru/kata/spring/boot_security/demo/controller/AdminRestController.java:59-79 | checks in order: binding errors 400, missing id 404, username of another id 400, each with the store unchanged; otherwise 200, and the body is stored under the path id |
| AdminApi.DeleteUser | src/main/java/ru/kata/spring/boot_security/demo/controller/AdminRestController.java:81-90 | a missing id gives 404 and no change; an existing one gives 204 and removes that key only |
| AdminApi.EndpointsPreserveGood | src/main/java/ru/kata/spring/boot_security/demo/controller/AdminRestController.java:45-90 | create, update and delete keep ids consistent and usernames unique |
| AdminApi.CreateAddsOneUser | src/main/java/ru/kata/spring/boot_security/demo/controller/AdminRestController.java:55-56 | a successful create without an id adds one entry under an unused key and changes no other entry |
| AdminApi.UpdateIgnoresBodyId | src/main/java/ru/kata/spring/boot_security/demo/controller/AdminRestController.java:76-77 | the id in an update body never affects the outcome; the path id is used |
| AdminApi.UpdateKeepingUsername | src/main/java/ru/kata/spring/boot_security/demo/controller/AdminRestController.java:71-74 | in a well-formed store, a valid update keeping a user's own username succeeds |
| AdminApi.DeleteTwice | src/main/java/ru/kata/spring/boot_security/demo/controller/AdminRestController.java:83-86 | deleting the same id again gives 404 |
| AdminPages.FindByIds | src/main/java/ru/kata/spring/boot_security/demo/service/RoleService.java:23 | the roles found are exactly the catalog roles whose id was submitted |
| AdminPages.SearchUsers | src/main/java/ru/kata/spring/boot_security/demo/controller/AdminController.java:109-119 | a request without the `keyword` parameter gets 400; otherwise "user-list" shows the keyword and the users that match it, in `findAll` order with their multiplicity |
| AdminPages.SearchEmptyKeyword | src/main/java/ru/kata/spring/boot_security/demo/controller/AdminController.java:111-115 | an empty keyword lists every user |
| AdminPages.CreateUser | src/main/java/ru/kata/spring/boot_security/demo/controller/AdminController.java:45-65 | a request without the `roles` parameter gets 400 and saves nothing; otherwise binding errors re-render "user-create", and a taken username re-renders it with `emailError`, neither saving; otherwise the user, with the roles of the submitted ids, is written under its own id when that id is stored and under the next generated id otherwise, and the browser is redirected to /admin/users |
| AdminPages.UpdateUser | src/main/java/ru/kata/spring/boot_security/demo/controller/AdminController.java:88-108 | a request without the `roles` parameter gets 400 and saves nothing; otherwise binding errors re-render "user-update", and a username owned by another id re-renders it with `emailError`, neither saving; otherwise the user, with the roles of the submitted ids, is written under its own id when that id is stored and under the next generated id otherwise, and the browser is redirected |
| AdminPages.SaveWithRoles | src/main/java/ru/kata/spring/boot_security/demo/controller/AdminController.java:61-63 | exactly one entry is written: the user with the submitted roles, under its own id when that id is stored, and under the next generated id otherwise |
| AdminPages.DeleteUser | src/main/java/ru/kata/spring/boot_security/demo/controller/AdminController.java:74-78 | it always redirects to /admin/users and removes that key only |
| AdminPages.SubmittedRolesReplaceFormRoles | src/main/java/ru/kata/spring/boot_security/demo/controller/AdminController.java:104-105 | the saved roles come from the submitted ids only, never from the bound user's own roles |
| AdminPages.HandlersPreserveGood | src/main/java/ru/kata/spring/boot_security/demo/controller/AdminController.java:45-108 | create, update and delete keep the store well formed |
| ConsoleFetch.FetchWithAuth | src/main/resources/static/js/admin.js:27-43 | fails exactly on a transport error, a status outside 200..299, or an undecodable body; null exactly on 204; otherwise resolves to the decoded body |
| ConsoleFetch.StatusMessageNamesStatus | src/main/resources/static/js/admin.js:31 | distinct failing statuses give distinct error messages |
| ConsoleModel.UserUrlInjective | src/main/resources/static/js/admin.js:162 | distinct user ids give distinct `/api/admin/users/{id}` URLs |
| ConsoleModel.RoleLabelOfPrefixed | src/main/resources/static/js/admin.js:100 | "ROLE_" + x is shown as x; "ROLE_ADMIN" is shown as "ADMIN" |
| ConsoleModel.RoleLabelOnlyFirst | src/main/resources/static/js/admin.js:262 | a name without "ROLE_" shows unchanged; only the first "ROLE_" is removed |
| ConsoleModel.RolesCell | src/main/resources/static/js/admin.js:100 | missing or empty roles show ""; a single role shows its label |
| ConsoleModel.RolesCellAppend | src/main/resources/static/js/admin.js:100 | each further role adds ", " and its label |
| ConsoleSearch.PerformSearch | src/main/resources/static/js/admin.js:432-442 | the users shown are an order-preserving subsequence of the loaded users; a user is kept exactly when its first name, last name or username contains the keyword, ignoring case |
| ConsoleSearch.HandleSearch | src/main/resources/static/js/admin.js:418-430 | a blank input clears the search and reloads; any other input is trimmed, and the trimmed keyword is searched |
| ConsoleSearch.SearchIgnoresCase | src/main/resources/static/js/admin.js:436-440 | keywords equal up to case find the same users |
| ConsoleSearch.SearchIdempotent | src/main/resources/static/js/admin.js:436-440 | searching the results again with the same keyword changes nothing |
| ConsoleSearch.SearchPair | src/main/resources/static/js/admin.js:436-440 | of a matching and a non-matching user, only the matching one is kept |
| ConsoleSearch.SmithExample | src/main/resources/static/js/admin.js:436-440 | "smith" against John Smith and Anna Lee finds John Smith only |
| ConsoleForm.CheckedValues | src/main/resources/static/js/admin.js:326 | the values read are the values of exactly the checked boxes, in document order; none are read exactly when no box is checked |
| ConsoleForm.ValidateForm | src/main/resources/static/js/admin.js:311-342 | each error is shown exactly when its check fails: a required text field blank after trimming, no role checked, the password blank in create mode; the form passes exactly when no check fails (password as corrected, see Findings) |
| ConsoleForm.ValidateFormAsWritten | src/main/resources/static/js/admin.js:311-342 | as written: each text field is flagged exactly when it trims to nothing, the roles exactly when none is checked, and the create-mode password only when it is the empty string; each flagged field carries its own message; the form passes exactly when nothing is flagged |
| ConsoleForm.NonNumericAgeAccepted | src/main/resources/static/js/admin.js:316-323 | an age of "abc" passes validation: only emptiness is checked |
| ConsoleForm.FindRole | src/main/resources/static/js/admin.js:390 | `find` gives the first catalog role with the id, or nothing exactly when none has it |
| ConsoleForm.ResolveRoles | src/main/resources/static/js/admin.js:387-393 | the ids of the body's roles are the checked ids, filtered to those the catalog knows, in checkbox order; each role is the catalog's role for its id |
| ConsoleForm.GetFormData | src/main/resources/static/js/admin.js:372-396 | fields are trimmed; a password is included exactly when the trimmed password is not empty; the roles are the resolved checked roles |
| ConsoleForm.HandleFormSubmit | src/main/resources/static/js/admin.js:287-301 | as written: a form that fails `validateForm` sends nothing and shows exactly its errors; otherwise the request for the form is sent; in create mode the POST carries a password exactly when the password does not trim to nothing |
| ConsoleForm.RequestFor | src/main/resources/static/js/admin.js:294-301 | when editing, a PUT to that user's URL whose body is the form data with that user's id (`updateUser`, lines 410-415); otherwise a POST to the collection with the form data |
| ConsoleForm.HandleFormSubmitCorrected | src/main/resources/static/js/admin.js:287-301 | with the corrected password check: a failing form sends nothing and shows exactly its errors; otherwise the request for the form is sent, and every POST carries a password |
| ConsoleForm.EditSubmitUnaffected | src/main/resources/static/js/admin.js:333-339 | when editing, the password is not checked, so the handler as written and the corrected one agree |
| ConsoleForm.PopulateRoles | src/main/resources/static/js/admin.js:249-267 | one box per catalog role, in catalog order, carrying the role id, and none of them checked |
| ConsoleForm.AgeText | src/main/resources/static/js/admin.js:223 | the age input is "" exactly when the age is null or 0, and its decimal text otherwise |
| ConsoleForm.Uncheck | src/main/resources/static/js/admin.js:227-230 | every box is unchecked and keeps its value |
| ConsoleForm.CheckFirst | src/main/resources/static/js/admin.js:233-237 | values are kept; a box ends up checked exactly when it already was, or it is the first box whose value is the id |
| ConsoleForm.CheckRoles | src/main/resources/static/js/admin.js:232-239 | values are kept; a box ends up checked exactly when it already was, or it is the first box whose value is the id of one of the roles |
| ConsoleForm.PopulateForm | src/main/resources/static/js/admin.js:219-240 | text fields come from the user and the password is cleared; box values are kept; a box ends up checked exactly when it is the first box whose value is the id of one of the user's roles |
| ConsoleForm.CheckRolesChooses | src/main/resources/static/js/admin.js:227-239 | on boxes rendered from a catalog with distinct ids, checking the user's roles checks exactly the boxes of their ids |
| ConsoleForm.ResolveOwnBoxes | src/main/resources/static/js/admin.js:387-393 | reading back boxes rendered from the catalog gives the chosen catalog roles in catalog order |
| ConsoleForm.OpenAdd | src/main/resources/static/js/admin.js:153-158 | create mode, the boxes freshly rendered from the catalog with none checked, and the text inputs untouched |
| ConsoleForm.OpenEditAsWritten | src/main/resources/static/js/admin.js:160-171 | as written: the user is being edited, the text fields hold the user's values with the password cleared, and the boxes are the freshly rendered catalog boxes, so none is checked |
| ConsoleForm.OpenEdit | src/main/resources/static/js/admin.js:165-166 | with the boxes rendered before the form is filled: the user is being edited, the catalog is kept, and the form is the fresh catalog boxes filled from the user by `populateForm` |
| ConsoleForm.EditRoundTripAsWritten | src/main/resources/static/js/admin.js:165-166 | as written, submitting an untouched edit form is always refused with the roles error |
| ConsoleForm.EditRoundTrip | src/main/resources/static/js/admin.js:160-171 | with the corrected order, an untouched edit form sends a PUT to that user with its own fields, no password, and its catalog roles |
| ConsoleForm.BlankPasswordAsWritten | src/main/resources/static/js/admin.js:333-339 | as written, a create-mode password of one space passes validation and the handler sends a POST with no password; the corrected handler refuses it with the password error |
| ConsoleForm.ResetForm | src/main/resources/static/js/admin.js:499-505 | inputs are emptied, every box is unchecked and keeps its value, and no user is being edited |
| ConsoleForm.SubmitCompleted | src/main/resources/static/js/admin.js:295-308 | a failed request leaves the form as it was and reloads nothing; success closes the modal, which resets the form (`ResetForm`), and reloads the list |
| ConsoleForm.OpenDelete | src/main/resources/static/js/admin.js:173-174 | the user is staged for deletion; the form is unchanged |
| ConsoleForm.ConfirmDelete | src/main/resources/static/js/admin.js:183-189 | nothing is sent exactly when no user is staged; otherwise a DELETE of that user's URL |
| ConsoleForm.DeleteStaged | src/main/resources/static/js/admin.js:173-189 | confirming after staging deletes exactly the staged user |

## Left out

- DOM rendering, Bootstrap modals, loading indicators, alerts and their timer: these are display effects. The model keeps only the data they show. `renderUsersTable` and `displaySearchResults` are left out for this reason.
- Network I/O and async ordering. `fetchWithAuth` is modelled on the outcome of `fetch`, which is given as input. `loadUsers` and `loadRoles` become the user and role lists passed in.
- The fetch inside `openEditModal`. `OpenEdit` takes the fetched user. A failed fetch only shows an alert, and a 204 makes `populateForm` throw; neither is modelled.
- `getAllUsers`, `getAllRoles`, `findAll` and the GET form handlers of `AdminController` only pass data to a view. They are not modelled.
- `UserService` is not part of this model. `UserStore` stands in for it.
  - Password encoding is not modelled.
  - Persistence is not modelled.
  - `saveUser` and `updateUser` are both taken to be a repository `save`.
  - `findByUsername` is taken to return the one owner of a username; usernames are unique by the column constraint.
- `DataLoader`, `user.js` and `RoleService` are not modelled. `user.js` shows roles with the same label as the console. `findByIds` is a lookup on the catalog.
- Entity.Valid: the `@Email` constraint on the username is not modelled, because it is a library check. The rules stated here are therefore weaker than the server's: they accept some usernames that `@Email` rejects.
- Entity.Violations: the violation `@Email` adds for a username it rejects is not modelled (see `Entity.Valid`), so the server can report one violation that the model does not.
- AdminApi.CreateUser: `@Email` is not modelled (see `Entity.Valid`), so the model accepts a create that the server might refuse with 400.
- AdminApi.UpdateUser: `@Email` is not modelled (see `Entity.Valid`).
- AdminPages.CreateUser: `@Email` is not modelled (see `Entity.Valid`).
- AdminPages.UpdateUser: `@Email` is not modelled (see `Entity.Valid`).
- Text.IntToDecimal: ids are taken to be safe integers, below 2^53 in magnitude. JavaScript numbers are exact only up to 2^53, and `String(n)` switches to exponent form at 1e21; neither is modelled, so `ConsoleModel.UserUrlInjective` holds only for such ids.
- Text.Lower: only ASCII letters are lower-cased. JavaScript and Java `toLowerCase` fold Unicode case and are locale-sensitive.
- ConsoleForm.GetFormData: the age is kept as the trimmed text. `parseInt`, which can give NaN, is not modelled.
- Entity.RolesString: the iteration order of the role `HashSet` is not modelled. It is given as a sequence.
- Null string fields are not modelled. The model does not cover a null name or username, which makes the searches throw, and bind-time type errors are not modelled either.
- The `userId` hidden input that `populateForm` sets is never read back by the console, so it is not modelled.

## Findings

| source | as written | input that shows it | evidently intended | confidence | as-written member | corrected member |
|---|---|---|---|---|---|---|
| src/main/resources/static/js/admin.js:333-339 | in create mode, the password is tested untrimmed for emptiness, while `getFormData` sends the trimmed password, or none when it trims to "" | creating a user with the password " " and every other field valid: validation passes, and the POST body has no password | a password that trims to nothing counts as missing, the way `getFormData` reads it | not executed | ConsoleForm.BlankPasswordAsWritten | ConsoleForm.HandleFormSubmitCorrected |
| src/main/resources/static/js/admin.js:165-166 | `openEditModal` calls `populateForm`, which checks the user's role boxes, and then `populateRoles`, which rebuilds every box unchecked | editing any user and saving without touching the roles: "At least one role must be selected" | the edit form opens with the user's roles checked, as `populateForm` intends | not executed | ConsoleForm.EditRoundTripAsWritten | ConsoleForm.EditRoundTrip |

=== FILE: admin_api.dfy ===
/**
 * The REST endpoints under /api/admin (controller/AdminRestController.java)
 * that decide something: read one user, create, update and delete. Each is a
 * function from the store and the request to the response and the new store.
 */
module AdminApi {
  import opened Wrappers
  import opened Entity
  import opened UserStore

  const OK := 200
  const CREATED := 201
  const NO_CONTENT := 204
  const BAD_REQUEST := 400
  const NOT_FOUND := 404

  /** A response body: none, a user as JSON, the binding errors, or a message. */
  datatype Body = NoBody | UserJson(user: User) | BindingErrors(errors: set<Violation>) | Message(text: string)

  datatype Response = Response(status: int, body: Body)

  /** A response together with the store it leaves behind. */
  datatype Exchange = Exchange(response: Response, store: Store)

  /** GET /users/{id}: 200 with the stored user, or 404 when there is none. */
  function GetUserById(s: Store, id: int): (r: Response)
    ensures r.status == OK <==> id in s.users
    ensures r.status == NOT_FOUND <==> id !in s.users
    ensures r.status == OK ==> r.body == UserJson(s.users[id])
    ensures r.status == NOT_FOUND ==> r.body == NoBody
  {
    match FindById(s, id)
    case Some(u) => Response(OK, UserJson(u))
    case None => Response(NOT_FOUND, NoBody)
  }

  /** POST /users. Binding errors give 400 with the errors, a username already stored
      gives 400 with a message, and both leave the store alone; otherwise the user is
      saved and returned with 201. */
  function CreateUser(s: Store, u: User): (r: Exchange)
    ensures r.response.status == CREATED || r.response.status == BAD_REQUEST
    ensures r.response.status == CREATED <==> Valid(u) && !UsernameTaken(s, u.username)
    ensures !Valid(u) ==> r.response.body == BindingErrors(Violations(u))
    ensures Valid(u) && UsernameTaken(s, u.username) ==> r.response.body == Message(DuplicateUsername)
    ensures r.response.status != CREATED ==> r.store == s
    ensures r.response.status == CREATED ==>
      && r.response.body.UserJson?
      && var saved := r.response.body.user;
      && saved.id.Some?
      && saved == u.(id := saved.id)
      && r.store.users == s.users[saved.id.value := saved]
      && (u.id.Some? && u.id.value in s.users ==> saved.id == u.id)
      && (!(u.id.Some? && u.id.value in s.users) ==> saved.id == Some(s.nextId))
  {
    if Violations(u) != {} then
      Exchange(Response(BAD_REQUEST, BindingErrors(Violations(u))), s)
    else if UsernameTaken(s, u.username) then
      Exchange(Response(BAD_REQUEST, Message(DuplicateUsername)), s)
    else
      var saved := Save(s, u);
      Exchange(Response(CREATED, UserJson(saved.user)), saved.store)
  }

  /** PUT /users/{id}. The checks run in order: binding errors (400), no user under `id`
      (404), the username owned by a user with another id (400); each leaves the store
      alone. Otherwise the body is saved under the path id, whatever id it carried. */
  function UpdateUser(s: Store, id: int, u: User): (r: Exchange)
    ensures !Valid(u) ==> r == Exchange(Response(BAD_REQUEST, BindingErrors(Violations(u))), s)
    ensures Valid(u) && id !in s.users ==> r == Exchange(Response(NOT_FOUND, NoBody), s)
    ensures Valid(u) && id in s.users && UsernameTakenByOther(s, u.username, Some(id)) ==>
      r == Exchange(Response(BAD_REQUEST, Message(DuplicateUsername)), s)
    ensures r.response.status == OK <==> Valid(u) && id in s.users && !UsernameTakenByOther(s, u.username, Some(id))
    ensures r.response.status == OK ==>
      && r.response.body == UserJson(u.(id := Some(id)))
      && r.store == s.(users := s.users[id := u.(id := Some(id))])
  {
    if Violations(u) != {} then
      Exchange(Response(BAD_REQUEST, BindingErrors(Violations(u))), s)
    else if FindById(s, id).None? then
      Exchange(Response(NOT_FOUND, NoBody), s)
    else if UsernameTakenByOther(s, u.username, Some(id)) then
      Exchange(Response(BAD_REQUEST, Message(DuplicateUsername)), s)
    else
      var saved := Save(s, u.(id := Some(id)));
      Exchange(Response(OK, UserJson(saved.user)), saved.store)
  }

  /** DELETE /users/{id}: 404 and no change when there is no such user; otherwise 204,
      that one entry removed and every other entry as it was. */
  function DeleteUser(s: Store, id: int): (r: Exchange)
    ensures id !in s.users ==> r == Exchange(Response(NOT_FOUND, NoBody), s)
    ensures id in s.users ==>
      && r.response == Response(NO_CONTENT, NoBody)
      && r.store.users.Keys == s.users.Keys - {id}
      && (forall k :: k in r.store.users ==> r.store.users[k] == s.users[k])
  {
    if FindById(s, id).None? then
      Exchange(Response(NOT_FOUND, NoBody), s)
    else
      Exchange(Response(NO_CONTENT, NoBody), DeleteById(s, id))
  }

  /** Every endpoint keeps the store well formed: ids match keys and usernames stay unique. */
  lemma EndpointsPreserveGood(s: Store, id: int, u: User)
    requires Good(s)
    ensures Good(CreateUser(s, u).store)
    ensures Good(UpdateUser(s, id, u).store)
    ensures Good(DeleteUser(s, id).store)
  {
    if Valid(u) && !UsernameTaken(s, u.username) {
      assert !UsernameTakenByOther(s, u.username, u.id);
      SavePreservesGood(s, u);
    }
    if Valid(u) && id in s.users && !UsernameTakenByOther(s, u.username, Some(id)) {
      SavePreservesGood(s, u.(id := Some(id)));
    }
    DeletePreservesGood(s, id);
  }

  /** A create whose body has no id, as the console sends it, adds exactly one entry, under
      a key not used before, and changes no other entry. */
  lemma CreateAddsOneUser(s: Store, u: User)
    requires Good(s)
    requires u.id.None?
    requires CreateUser(s, u).response.status == CREATED
    ensures s.nextId !in s.users
    ensures CreateUser(s, u).store.users.Keys == s.users.Keys + {s.nextId}
    ensures forall k :: k in s.users ==> CreateUser(s, u).store.users[k] == s.users[k]
    ensures CreateUser(s, u).store.users[s.nextId].username == u.username
  {
  }

  /** The id in an update's body is never used: only the path id is. */
  lemma UpdateIgnoresBodyId(s: Store, id: int, u: User, bodyId: Option<int>)
    ensures UpdateUser(s, id, u.(id := bodyId)) == UpdateUser(s, id, u)
  {
    assert Violations(u.(id := bodyId)) == Violations(u);
    assert u.(id := bodyId).(id := Some(id)) == u.(id := Some(id));
  }

  /** Keeping one's own username is not a conflict: in a well-formed store, an update that
      leaves a stored user's username as it was passes the duplicate check. */
  lemma UpdateKeepingUsername(s: Store, id: int, u: User)
    requires Good(s)
    requires id in s.users && u.username == s.users[id].username
    requires Valid(u)
    ensures UpdateUser(s, id, u).response.status == OK
  {
    OwnerLookup(s, u.username, id, Some(id));
  }

  /** A second delete of the same id finds nothing. */
  lemma DeleteTwice(s: Store, id: int)
    ensures DeleteUser(DeleteUser(s, id).store, id).response.status == NOT_FOUND
  {
  }
}

=== FILE: admin_pages.dfy ===
/**
 * The server-rendered admin pages under /admin (controller/AdminController.java):
 * the keyword search, create, update and delete. Each handler returns the page
 * to show (a view with its model attributes, or a redirect) and the new store.
 */
module AdminPages {
  import opened Wrappers
  import opened Search
  import opened Entity
  import opened UserStore

  const UsersPath := "/admin/users"

  /** What a request to a handler renders: the "user-list" view with its users and keyword, a
      form view ("user-create" or "user-update") with the user, the role catalog and an
      optional `emailError`, a redirect, or Spring's 400 page for a missing required request
      parameter (the handler is then never called). */
  datatype Page =
    | UserList(users: seq<User>, keyword: Option<string>)
    | UserForm(view: string, user: User, allRoles: seq<Role>, emailError: Option<string>)
    | Redirect(location: string)
    | MissingParameter(name: string)

  datatype Outcome = Outcome(page: Page, store: Store)

  /** `roleService.findByIds(ids)`: the catalog roles whose id was submitted. */
  function FindByIds(catalog: seq<Role>, ids: set<int>): (r: set<Role>)
    ensures forall x :: x in r <==> x in catalog && x.id in ids
  {
    set x | x in catalog && x.id in ids
  }

  /** The search test on a stored user. */
  predicate Selected(u: User, keyword: string) {
    Matches(u.firstName, u.lastName, u.username, keyword)
  }

  /** GET /users/search. `keyword` is a required request parameter (`None` when the request
      has none): without it Spring answers 400 before the handler runs. Otherwise the users of
      `findAll` (given in its order) that match the keyword, in the same order, are shown with
      the keyword. The keyword is used as given: an empty one matches everybody. */
  function SearchUsers(all: seq<User>, keyword: Option<string>): (p: Page)
    ensures keyword.None? ==> p == MissingParameter("keyword")
    ensures keyword.Some? ==> p.UserList? && p.keyword == keyword
    ensures keyword.Some? ==> IsSubsequence(p.users, all)
    ensures keyword.Some? ==> forall u :: u in p.users <==> u in all && Selected(u, keyword.value)
    ensures keyword.Some? ==>
      forall u :: multiset(p.users)[u] == if Selected(u, keyword.value) then multiset(all)[u] else 0
  {
    match keyword
    case None => MissingParameter("keyword")
    case Some(k) => UserList(Filter(all, u => Selected(u, k)), keyword)
  }

  /** An empty keyword lists every user. */
  lemma SearchEmptyKeyword(all: seq<User>)
    ensures SearchUsers(all, Some("")).users == all
  {
    forall u: User
      ensures Selected(u, "")
    {
      EmptyKeywordMatches(u.firstName, u.lastName, u.username);
    }
    FilterKeepsAll(all, u => Selected(u, ""));
  }

  /** POST /user-create. `roles` is a required request parameter (`None` when the request has
      none, as a form with no role ticked sends): without it Spring answers 400 before the
      handler runs. Binding errors re-render "user-create"; a username already stored
      re-renders it with `emailError`; none of these saves. Otherwise the user gets the roles
      of the submitted ids, is saved, and the browser is sent to the user list. */
  function CreateUser(s: Store, u: User, roleIds: Option<set<int>>, catalog: seq<Role>): (r: Outcome)
    ensures roleIds.None? ==> r == Outcome(MissingParameter("roles"), s)
    ensures roleIds.Some? && !Valid(u) ==> r == Outcome(UserForm("user-create", u, catalog, None), s)
    ensures roleIds.Some? && Valid(u) && UsernameTaken(s, u.username) ==>
      r == Outcome(UserForm("user-create", u, catalog, Some(DuplicateUsername)), s)
    ensures r.page.Redirect? <==> roleIds.Some? && Valid(u) && !UsernameTaken(s, u.username)
    ensures r.page.Redirect? ==>
      && r.page.location == UsersPath
      && var k := if u.id.Some? && u.id.value in s.users then u.id.value else s.nextId;
         r.store.users == s.users[k := u.(id := Some(k), roles := FindByIds(catalog, roleIds.value))]
  {
    match roleIds
    case None => Outcome(MissingParameter("roles"), s)
    case Some(ids) =>
      if Violations(u) != {} then
        Outcome(UserForm("user-create", u, catalog, None), s)
      else if UsernameTaken(s, u.username) then
        Outcome(UserForm("user-create", u, catalog, Some(DuplicateUsername)), s)
      else
        Outcome(Redirect(UsersPath), SaveWithRoles(s, u, ids, catalog))
  }

  /** POST /user-update. Without a `roles` parameter Spring answers 400 before the handler runs.
      Binding errors re-render "user-update"; a username owned by a user with a different id
      (a form without an id differs from every stored id) re-renders it with `emailError`;
      none of these saves. Otherwise the user gets the roles of the submitted ids, is saved,
      and the browser is sent to the user list. */
  function UpdateUser(s: Store, u: User, roleIds: Option<set<int>>, catalog: seq<Role>): (r: Outcome)
    ensures roleIds.None? ==> r == Outcome(MissingParameter("roles"), s)
    ensures roleIds.Some? && !Valid(u) ==> r == Outcome(UserForm("user-update", u, catalog, None), s)
    ensures roleIds.Some? && Valid(u) && UsernameTakenByOther(s, u.username, u.id) ==>
      r == Outcome(UserForm("user-update", u, catalog, Some(DuplicateUsername)), s)
    ensures r.page.Redirect? <==> roleIds.Some? && Valid(u) && !UsernameTakenByOther(s, u.username, u.id)
    ensures r.page.Redirect? ==>
      && r.page.location == UsersPath
      && var k := if u.id.Some? && u.id.value in s.users then u.id.value else s.nextId;
         r.store.users == s.users[k := u.(id := Some(k), roles := FindByIds(catalog, roleIds.value))]
  {
    match roleIds
    case None => Outcome(MissingParameter("roles"), s)
    case Some(ids) =>
      if Violations(u) != {} then
        Outcome(UserForm("user-update", u, catalog, None), s)
      else if UsernameTakenByOther(s, u.username, u.id) then
        Outcome(UserForm("user-update", u, catalog, Some(DuplicateUsername)), s)
      else
        Outcome(Redirect(UsersPath), SaveWithRoles(s, u, ids, catalog))
  }

  /** The user saved with the roles of the submitted ids in place of its own: one entry is
      written, under the user's own id when that id is stored, and under the next generated
      id otherwise. */
  function SaveWithRoles(s: Store, u: User, roleIds: set<int>, catalog: seq<Role>): (s': Store)
    ensures var k := if u.id.Some? && u.id.value in s.users then u.id.value else s.nextId;
            s'.users == s.users[k := u.(id := Some(k), roles := FindByIds(catalog, roleIds))]
  {
    var saved := Save(s, u.(roles := FindByIds(catalog, roleIds)));
    var k := saved.user.id.value;
    assert saved.user == u.(id := Some(k), roles := FindByIds(catalog, roleIds));
    saved.store
  }

  /** POST /user-delete/{id}: always deletes by id and redirects to the user list, whether
      or not the user existed; no other entry changes. */
  function DeleteUser(s: Store, id: int): (r: Outcome)
    ensures r.page == Redirect(UsersPath)
    ensures r.store.users.Keys == s.users.Keys - {id}
    ensures forall k :: k in r.store.users ==> r.store.users[k] == s.users[k]
  {
    Outcome(Redirect(UsersPath), DeleteById(s, id))
  }

  /** The roles a user ends up with come from the submitted ids only, never from the form's
      own role field: two submissions differing only in that field save the same store. */
  lemma SubmittedRolesReplaceFormRoles(s: Store, u: User, other: set<Role>, roleIds: Option<set<int>>, catalog: seq<Role>)
    ensures UpdateUser(s, u.(roles := other), roleIds, catalog) ==
            (var r := UpdateUser(s, u, roleIds, catalog);
             if r.page.UserForm? then r.(page := r.page.(user := u.(roles := other))) else r)
    ensures CreateUser(s, u.(roles := other), roleIds, catalog).store == CreateUser(s, u, roleIds, catalog).store
  {
    assert Violations(u.(roles := other)) == Violations(u);
    if roleIds.Some? {
      var roles := FindByIds(catalog, roleIds.value);
      assert u.(roles := other).(roles := roles) == u.(roles := roles);
    }
  }

  /** Every handler keeps the store well formed. */
  lemma HandlersPreserveGood(s: Store, u: User, roleIds: Option<set<int>>, catalog: seq<Role>, id: int)
    requires Good(s)
    ensures Good(CreateUser(s, u, roleIds, catalog).store)
    ensures Good(UpdateUser(s, u, roleIds, catalog).store)
    ensures Good(DeleteUser(s, id).store)
  {
    if roleIds.Some? {
      var v := u.(roles := FindByIds(catalog, roleIds.value));
      if Valid(u) && !UsernameTaken(s, u.username) {
        assert !UsernameTakenByOther(s, v.username, v.id);
        SavePreservesGood(s, v);
      }
      if Valid(u) && !UsernameTakenByOther(s, u.username, u.id) {
        SavePreservesGood(s, v);
      }
    }
    DeletePreservesGood(s, id);
  }
}

=== FILE: console_fetch.dfy ===
/**
 * How the admin console's `fetchWithAuth` (static/js/admin.js) classifies what
 * comes back from a request. The network call itself is not modelled: its
 * outcome is the input.
 */
module ConsoleFetch {
  import opened Wrappers
  import opened Text

  /** What `fetch` produced: a rejected promise (no response at all), or a status and
      a body that `response.json()` either decodes to a value or rejects. */
  datatype Reply<T> = NetworkError | Reply(status: int, json: Option<T>)

  /** Why a request counts as failed. */
  datatype FailReason = Transport | HttpStatus(status: int) | UndecodableBody

  /** The result `fetchWithAuth` resolves to, or the error it throws. */
  datatype Fetched<T> = Failure(reason: FailReason) | Null | Value(value: T)

  /** `response.ok`: the status lies in 200..299 (the Fetch standard's "ok status"). */
  predicate OkStatus(status: int) {
    200 <= status <= 299
  }

  /** A response that is not ok fails; an ok 204 resolves to null without reading the body;
      any other ok response resolves to its decoded body, or fails if it does not decode. */
  function FetchWithAuth<T>(r: Reply<T>): (f: Fetched<T>)
    ensures f.Failure? <==> r.NetworkError? || !OkStatus(r.status) || (r.status != 204 && r.json.None?)
    ensures f.Null? <==> r.Reply? && r.status == 204
    ensures f.Value? ==> r.Reply? && OkStatus(r.status) && r.status != 204 && r.json == Some(f.value)
    ensures r.Reply? && !OkStatus(r.status) ==> f == Failure(HttpStatus(r.status))
  {
    match r
    case NetworkError => Failure(Transport)
    case Reply(status, json) =>
      if !OkStatus(status) then Failure(HttpStatus(status))
      else if status == 204 then Null
      else
        match json
        case None => Failure(UndecodableBody)
        case Some(v) => Value(v)
  }

  /** The error message thrown for a status that is not ok; the banner shows it after "Error: ". */
  function StatusMessage(status: int): string {
    "HTTP error! status: " + IntToDecimal(status)
  }

  /** Different failing statuses produce different messages. */
  lemma StatusMessageNamesStatus(a: int, b: int)
    requires StatusMessage(a) == StatusMessage(b)
    ensures a == b
  {
    var p := "HTTP error! status: ";
    assert (p + IntToDecimal(a))[|p|..] == IntToDecimal(a);
    assert (p + IntToDecimal(b))[|p|..] == IntToDecimal(b);
    IntToDecimalInjective(a, b);
  }
}

=== FILE: console_form.dfy ===
/**
 * The admin console's user form (static/js/admin.js): opening it to add or
 * edit a user, validating it, building the request body, choosing POST or
 * PUT, what a completed request does to the form, and the delete confirmation.
 * The DOM is replaced by a record of the form's raw input values and its role
 * checkboxes in document order.
 */
module ConsoleForm {
  import opened Wrappers
  import opened Text
  import opened Search
  import opened Entity
  import opened ConsoleModel
  import opened ConsoleFetch

  /** A role checkbox: the role id it was rendered for, and whether it is checked. */
  datatype Checkbox = Checkbox(value: int, checked: bool)

  /** The form's inputs as typed (untrimmed), and its role checkboxes in document order. */
  datatype Form = Form(
    firstName: string,
    lastName: string,
    age: string,
    username: string,
    password: string,
    boxes: seq<Checkbox>)

  /** The console's form state: the role catalog loaded at start-up, the user being edited
      (`currentEditingUser`, null in create mode) and the form. */
  datatype Editor = Editor(catalog: seq<Role>, editing: Option<UserRecord>, form: Form)

  datatype Field = FirstName | LastName | Age | Username | RolesField | Password

  const FieldRequired := "This field is required"
  const RoleRequired := "At least one role must be selected"
  const PasswordRequired := "Password is required for new users"

  /** The values of some boxes, in document order. */
  function Values(boxes: seq<Checkbox>): (vs: seq<int>)
    ensures |vs| == |boxes|
    ensures forall i :: 0 <= i < |boxes| ==> vs[i] == boxes[i].value
  {
    if boxes == [] then [] else [boxes[0].value] + Values(boxes[1..])
  }

  predicate IsChecked(b: Checkbox) {
    b.checked
  }

  /** The values of the checked boxes, in document order
      (`querySelectorAll('input[name="roles"]:checked')`). */
  function CheckedValues(boxes: seq<Checkbox>): (vs: seq<int>)
    ensures vs == Values(Filter(boxes, IsChecked))
    ensures |vs| <= |boxes|
    ensures vs == [] <==> forall i :: 0 <= i < |boxes| ==> !boxes[i].checked
  {
    if boxes == [] then []
    else if boxes[0].checked then
      var rest := CheckedValues(boxes[1..]);
      assert Values([boxes[0]] + Filter(boxes[1..], IsChecked)) == [boxes[0].value] + rest;
      [boxes[0].value] + rest
    else
      assert forall i :: 1 <= i < |boxes| ==> boxes[i] == boxes[1..][i - 1];
      CheckedValues(boxes[1..])
  }

  /** The message `validateForm` shows under a field it rejects. */
  function MessageFor(field: Field): string {
    match field
    case RolesField => RoleRequired
    case Password => PasswordRequired
    case _ => FieldRequired
  }

  /** The checks of `validateForm`, with the test for a missing password as a parameter:
      the field errors shown, as a map from each rejected field to its message. */
  function Checks(f: Form, editing: bool, passwordMissing: bool): (errs: map<Field, string>)
    ensures FirstName in errs <==> Blank(f.firstName)
    ensures LastName in errs <==> Blank(f.lastName)
    ensures Age in errs <==> Blank(f.age)
    ensures Username in errs <==> Blank(f.username)
    ensures RolesField in errs <==> CheckedValues(f.boxes) == []
    ensures Password in errs <==> !editing && passwordMissing
    ensures forall field :: field in errs ==> errs[field] == MessageFor(field)
    ensures errs == map[] <==>
      && !Blank(f.firstName) && !Blank(f.lastName) && !Blank(f.age) && !Blank(f.username)
      && CheckedValues(f.boxes) != []
      && (editing || !passwordMissing)
  {
    var shown := map field: Field | (field == FirstName && Blank(f.firstName))
                                     || (field == LastName && Blank(f.lastName))
                                     || (field == Age && Blank(f.age))
                                     || (field == Username && Blank(f.username))
                                     || (field == RolesField && CheckedValues(f.boxes) == [])
                                     || (field == Password && !editing && passwordMissing)
                                  :: MessageFor(field);
    assert shown == map[] ==> FirstName !in shown && LastName !in shown && Age !in shown
                              && Username !in shown && RolesField !in shown && Password !in shown;
    shown
  }

  /** `validateForm` as written: the four text fields must not trim to nothing, a role must be
      checked, and in create mode the password must not be the empty string. Unlike the other
      fields, the password is not trimmed here. */
  function ValidateFormAsWritten(f: Form, editing: bool): (errs: map<Field, string>)
    ensures FirstName in errs <==> Blank(f.firstName)
    ensures LastName in errs <==> Blank(f.lastName)
    ensures Age in errs <==> Blank(f.age)
    ensures Username in errs <==> Blank(f.username)
    ensures RolesField in errs <==> CheckedValues(f.boxes) == []
    ensures Password in errs <==> !editing && f.password == ""
    ensures forall field :: field in errs ==> errs[field] == MessageFor(field)
    ensures errs == map[] <==>
      && !Blank(f.firstName) && !Blank(f.lastName) && !Blank(f.age) && !Blank(f.username)
      && CheckedValues(f.boxes) != []
      && (editing || f.password != "")
  {
    Checks(f, editing, f.password == "")
  }

  /** `validateForm` with the password judged the way `getFormData` reads it, trimmed: in
      create mode a password that trims to nothing is missing. */
  function ValidateForm(f: Form, editing: bool): (errs: map<Field, string>)
    ensures FirstName in errs <==> Blank(f.firstName)
    ensures LastName in errs <==> Blank(f.lastName)
    ensures Age in errs <==> Blank(f.age)
    ensures Username in errs <==> Blank(f.username)
    ensures RolesField in errs <==> CheckedValues(f.boxes) == []
    ensures Password in errs <==> !editing && Blank(f.password)
    ensures forall field :: field in errs ==> errs[field] == MessageFor(field)
    ensures errs == map[] <==>
      && !Blank(f.firstName) && !Blank(f.lastName) && !Blank(f.age) && !Blank(f.username)
      && CheckedValues(f.boxes) != []
      && (editing || !Blank(f.password))
  {
    Checks(f, editing, Blank(f.password))
  }

  /** The validation accepts a non-numeric age: only emptiness is checked. */
  lemma NonNumericAgeAccepted(f: Form, editing: bool)
    requires f.age == "abc"
    requires !Blank(f.firstName) && !Blank(f.lastName) && !Blank(f.username) && !Blank(f.password)
    requires CheckedValues(f.boxes) != []
    ensures ValidateForm(f, editing) == map[]
    ensures ValidateFormAsWritten(f, editing) == map[]
  {
    assert !IsJsSpace(f.age[0]);
  }

  /** `this.roles.find(r => r.id === id)`: the first catalog role with that id. */
  function FindRole(catalog: seq<Role>, id: int): (r: Option<Role>)
    ensures r.None? <==> forall i :: 0 <= i < |catalog| ==> catalog[i].id != id
    ensures r.Some? ==> exists i :: 0 <= i < |catalog| && catalog[i] == r.value && r.value.id == id
                                    && forall j :: 0 <= j < i ==> catalog[j].id != id
  {
    if catalog == [] then None
    else if catalog[0].id == id then Some(catalog[0])
    else
      var r := FindRole(catalog[1..], id);
      assert forall i :: 1 <= i < |catalog| ==> catalog[i] == catalog[1..][i - 1];
      assert r.Some? ==> exists i :: 1 <= i < |catalog| && catalog[i] == r.value && r.value.id == id
                                     && forall j :: 0 <= j < i ==> catalog[j].id != id by {
        if r.Some? {
          var i :| 0 <= i < |catalog[1..]| && catalog[1..][i] == r.value && r.value.id == id
                   && forall j :: 0 <= j < i ==> catalog[1..][j].id != id;
          assert catalog[i + 1] == r.value;
          assert forall j :: 0 <= j < i + 1 ==> catalog[j].id != id by {
            forall j | 0 <= j < i + 1
              ensures catalog[j].id != id
            {
              if j > 0 {
                assert catalog[j] == catalog[1..][j - 1];
              }
            }
          }
        }
      }
      r
  }

  function Ids(roles: seq<Role>): (ids: seq<int>)
    ensures |ids| == |roles|
    ensures forall i :: 0 <= i < |roles| ==> ids[i] == roles[i].id
  {
    if roles == [] then [] else [roles[0].id] + Ids(roles[1..])
  }

  /** The test "the catalog has a role with this id". */
  function KnownIn(catalog: seq<Role>): int -> bool {
    id => FindRole(catalog, id).Some?
  }

  /** The roles of the checked ids: each id is looked up in the catalog, an id with no role
      is dropped, and the order of the ids is kept. */
  function ResolveRoles(ids: seq<int>, catalog: seq<Role>): (rs: seq<Role>)
    ensures Ids(rs) == Filter(ids, KnownIn(catalog))
    ensures forall i :: 0 <= i < |rs| ==> FindRole(catalog, rs[i].id) == Some(rs[i])
  {
    if ids == [] then []
    else
      var rest := ResolveRoles(ids[1..], catalog);
      match FindRole(catalog, ids[0])
      case Some(r) =>
        assert Ids([r] + rest) == [r.id] + Ids(rest);
        [r] + rest
      case None => rest
  }

  /** The body `getFormData` builds and `createUser`/`updateUser` send. `age` is the trimmed
      text that `parseInt` reads; `id` is set only for an update. */
  datatype UserBody = UserBody(
    id: Option<int>,
    firstName: string,
    lastName: string,
    age: string,
    username: string,
    password: Option<string>,
    roles: seq<Role>)

  /** `getFormData`: trimmed field values; a `password` key exactly when the trimmed password is
      not empty; the roles of the checked boxes, in document order, looked up in the catalog. */
  function GetFormData(f: Form, catalog: seq<Role>): (b: UserBody)
    ensures b.id.None?
    ensures b.firstName == Trim(f.firstName) && b.lastName == Trim(f.lastName)
    ensures b.age == Trim(f.age) && b.username == Trim(f.username)
    ensures b.password.Some? <==> !Blank(f.password)
    ensures b.password.Some? ==> b.password.value == Trim(f.password) && b.password.value != ""
    ensures b.roles == ResolveRoles(CheckedValues(f.boxes), catalog)
  {
    var password := Trim(f.password);
    UserBody(None, Trim(f.firstName), Trim(f.lastName), Trim(f.age), Trim(f.username),
             if password == "" then None else Some(password),
             ResolveRoles(CheckedValues(f.boxes), catalog))
  }

  /** What submitting the form does: nothing but field errors, or one request. */
  datatype Submission = Rejected(errors: map<Field, string>) | Send(request: Request<UserBody>)

  /** The request a valid form becomes: PUT to the edited user's URL with that user's id in
      the body, or POST to the collection when no user is being edited. */
  function RequestFor(e: Editor): (q: Request<UserBody>)
    ensures q.body.Some?
    ensures q.verb == Put <==> e.editing.Some?
    ensures q.verb == Post <==> e.editing.None?
    ensures e.editing.Some? ==>
      && q.endpoint == UserById(e.editing.value.id)
      && q.body.value == GetFormData(e.form, e.catalog).(id := Some(e.editing.value.id))
    ensures e.editing.None? ==> q.endpoint == Users && q.body.value == GetFormData(e.form, e.catalog)
  {
    var body := GetFormData(e.form, e.catalog);
    match e.editing
    case Some(u) => Request(Put, UserById(u.id), Some(body.(id := Some(u.id))))
    case None => Request(Post, Users, Some(body))
  }

  /** `handleFormSubmit` as written: a form that fails `validateForm` is rejected before any
      request is built; otherwise its request is sent. In create mode the POST carries a
      password exactly when the password does not trim to nothing, so a password of spaces
      gives a POST without one. */
  function HandleFormSubmit(e: Editor): (s: Submission)
    ensures s.Rejected? <==> ValidateFormAsWritten(e.form, e.editing.Some?) != map[]
    ensures s.Rejected? ==> s.errors == ValidateFormAsWritten(e.form, e.editing.Some?)
    ensures s.Send? ==> s.request == RequestFor(e)
    ensures s.Send? && e.editing.None? ==>
      (s.request.body.value.password.Some? <==> !Blank(e.form.password))
  {
    var errs := ValidateFormAsWritten(e.form, e.editing.Some?);
    if errs != map[] then Rejected(errs) else Send(RequestFor(e))
  }

  /** `handleFormSubmit` with the corrected validation: every POST carries a password. */
  function HandleFormSubmitCorrected(e: Editor): (s: Submission)
    ensures s.Rejected? <==> ValidateForm(e.form, e.editing.Some?) != map[]
    ensures s.Rejected? ==> s.errors == ValidateForm(e.form, e.editing.Some?)
    ensures s.Send? ==> s.request == RequestFor(e)
    ensures s.Send? && e.editing.None? ==> s.request.body.value.password.Some?
  {
    var errs := ValidateForm(e.form, e.editing.Some?);
    if errs != map[] then Rejected(errs) else Send(RequestFor(e))
  }

  /** In edit mode the password is not checked, so both validations agree. */
  lemma EditSubmitUnaffected(e: Editor)
    requires e.editing.Some?
    ensures HandleFormSubmit(e) == HandleFormSubmitCorrected(e)
  {
    assert ValidateFormAsWritten(e.form, true) == ValidateForm(e.form, true) by {
      assert Checks(e.form, true, e.form.password == "") == Checks(e.form, true, Blank(e.form.password));
    }
  }

  /** One box per role, checked exactly when the role's id is chosen. */
  function BoxesFor(roles: seq<Role>, chosen: set<int>): (boxes: seq<Checkbox>)
    ensures |boxes| == |roles|
    ensures forall i :: 0 <= i < |roles| ==> boxes[i] == Checkbox(roles[i].id, roles[i].id in chosen)
  {
    if roles == [] then [] else [Checkbox(roles[0].id, roles[0].id in chosen)] + BoxesFor(roles[1..], chosen)
  }

  /** `populateRoles`: the container is emptied and one unchecked box is rendered per catalog role. */
  function PopulateRoles(catalog: seq<Role>): (boxes: seq<Checkbox>)
    ensures |boxes| == |catalog|
    ensures forall i :: 0 <= i < |catalog| ==> boxes[i].value == catalog[i].id && !boxes[i].checked
    ensures CheckedValues(boxes) == []
  {
    BoxesFor(catalog, {})
  }

  /** Box `i` is the first box with its value: the one `querySelector` finds for that value. */
  predicate FirstOfValue(vals: seq<int>, i: int)
    requires 0 <= i < |vals|
  {
    forall j :: 0 <= j < i ==> vals[j] != vals[i]
  }

  /** A box is first of its value among the boxes after the first one exactly when it is first
      in the whole list and does not share the first box's value. */
  lemma FirstOfValueTail(vals: seq<int>, i: int)
    requires 1 <= i < |vals|
    ensures FirstOfValue(vals, i) <==> vals[0] != vals[i] && FirstOfValue(vals[1..], i - 1)
  {
    if vals[0] != vals[i] && FirstOfValue(vals[1..], i - 1) {
      forall j | 0 <= j < i
        ensures vals[j] != vals[i]
      {
        if j > 0 {
          assert vals[1..][j - 1] == vals[j];
        }
      }
    }
  }

  /** Checks the first box whose value is `id`, if there is one (`querySelector`); no value
      changes and no other box changes. */
  function CheckFirst(boxes: seq<Checkbox>, id: int): (r: seq<Checkbox>)
    ensures |r| == |boxes|
    ensures Values(r) == Values(boxes)
    ensures forall i :: 0 <= i < |boxes| ==>
      (r[i].checked <==> boxes[i].checked || (boxes[i].value == id && FirstOfValue(Values(boxes), i)))
  {
    if boxes == [] then []
    else if boxes[0].value == id then
      var r := [boxes[0].(checked := true)] + boxes[1..];
      assert Values(r) == Values(boxes);
      r
    else
      var rest := CheckFirst(boxes[1..], id);
      var r := [boxes[0]] + rest;
      assert Values(boxes)[1..] == Values(boxes[1..]);
      assert Values(r) == Values(boxes) by {
        assert forall i :: 1 <= i < |r| ==> r[i] == rest[i - 1] && boxes[i] == boxes[1..][i - 1];
      }
      forall i | 1 <= i < |boxes|
        ensures r[i].checked <==> boxes[i].checked || (boxes[i].value == id && FirstOfValue(Values(boxes), i))
      {
        assert r[i] == rest[i - 1] && boxes[i] == boxes[1..][i - 1];
        FirstOfValueTail(Values(boxes), i);
      }
      r
  }

  /** Checks the box of each role in turn: a box ends up checked exactly when it was, or it is
      the first box carrying the id of one of the roles. */
  function CheckRoles(boxes: seq<Checkbox>, roles: seq<Role>): (r: seq<Checkbox>)
    ensures |r| == |boxes|
    ensures Values(r) == Values(boxes)
    ensures forall i :: 0 <= i < |boxes| ==>
      (r[i].checked <==> boxes[i].checked || (boxes[i].value in IdSet(roles) && FirstOfValue(Values(boxes), i)))
    decreases roles
  {
    if roles == [] then boxes
    else
      var once := CheckFirst(boxes, roles[0].id);
      var r := CheckRoles(once, roles[1..]);
      assert IdSet(roles) == {roles[0].id} + IdSet(roles[1..]);
      assert forall i :: 0 <= i < |boxes| ==> once[i].value == boxes[i].value by {
        assert forall i :: 0 <= i < |boxes| ==> Values(once)[i] == once[i].value && Values(boxes)[i] == boxes[i].value;
      }
      r
  }

  /** Every box unchecked; the values stay. */
  function Uncheck(boxes: seq<Checkbox>): (r: seq<Checkbox>)
    ensures |r| == |boxes|
    ensures forall i :: 0 <= i < |boxes| ==> r[i] == boxes[i].(checked := false)
    ensures Values(r) == Values(boxes)
  {
    if boxes == [] then []
    else
      var r := [boxes[0].(checked := false)] + Uncheck(boxes[1..]);
      assert Values(r) == Values(boxes) by {
        assert forall i :: 0 <= i < |r| ==> Values(r)[i] == Values(boxes)[i];
      }
      r
  }

  /** The age input as `populateForm` fills it: `user.age || ''`, so a null or zero age gives ''. */
  function AgeText(age: Option<int>): (t: string)
    ensures t == "" <==> age.None? || age.value == 0
    ensures t != "" ==> t == IntToDecimal(age.value)
  {
    if age.None? || age.value == 0 then "" else IntToDecimal(age.value)
  }

  /** `populateForm(user)`: the text inputs from the user, the password cleared, every box
      unchecked and then the box of each of the user's roles checked. */
  function PopulateForm(f: Form, u: UserRecord): (f': Form)
    ensures f'.firstName == u.firstName && f'.lastName == u.lastName && f'.username == u.username
    ensures f'.age == AgeText(u.age) && f'.password == ""
    ensures |f'.boxes| == |f.boxes| && Values(f'.boxes) == Values(f.boxes)
    ensures forall i :: 0 <= i < |f.boxes| ==>
      (f'.boxes[i].checked <==> f.boxes[i].value in IdSet(u.roles.GetOr([])) && FirstOfValue(Values(f.boxes), i))
  {
    Form(u.firstName, u.lastName, AgeText(u.age), u.username, "",
         CheckRoles(Uncheck(f.boxes), u.roles.GetOr([])))
  }

  /** `openAddModal`: create mode, with freshly rendered, unchecked role boxes. The text inputs
      keep whatever they held (the form is cleared when the modal closes). */
  function OpenAdd(e: Editor): (e': Editor)
    ensures e'.editing.None? && e'.catalog == e.catalog
    ensures e'.form.boxes == PopulateRoles(e.catalog)
    ensures CheckedValues(e'.form.boxes) == []
    ensures e'.form.(boxes := e.form.boxes) == e.form
  {
    Editor(e.catalog, None, e.form.(boxes := PopulateRoles(e.catalog)))
  }

  /** `openEditModal` as written, once the user has been fetched: `populateForm` checks the
      user's role boxes and then `populateRoles` replaces every box with an unchecked one. */
  function OpenEditAsWritten(e: Editor, u: UserRecord): (e': Editor)
    ensures e'.editing == Some(u) && e'.catalog == e.catalog
    ensures e'.form.firstName == u.firstName && e'.form.lastName == u.lastName
    ensures e'.form.username == u.username && e'.form.age == AgeText(u.age) && e'.form.password == ""
    ensures e'.form.boxes == PopulateRoles(e.catalog)
    ensures CheckedValues(e'.form.boxes) == []
  {
    var filled := PopulateForm(e.form, u);
    Editor(e.catalog, Some(u), filled.(boxes := PopulateRoles(e.catalog)))
  }

  /** `openEditModal` with the boxes rendered before the form is filled, so that the user's
      roles end up checked. */
  function OpenEdit(e: Editor, u: UserRecord): (e': Editor)
    ensures e'.editing == Some(u) && e'.catalog == e.catalog
    ensures e'.form == PopulateForm(e.form.(boxes := PopulateRoles(e.catalog)), u)
  {
    Editor(e.catalog, Some(u), PopulateForm(e.form.(boxes := PopulateRoles(e.catalog)), u))
  }

  /** No role id appears twice in the catalog (ids are primary keys). */
  predicate DistinctIds(roles: seq<Role>) {
    forall i, j :: 0 <= i < j < |roles| ==> roles[i].id != roles[j].id
  }

  /** The set of ids of some roles. */
  function IdSet(roles: seq<Role>): (s: set<int>)
    ensures forall id :: id in s <==> exists i :: 0 <= i < |roles| && roles[i].id == id
  {
    if roles == [] then {}
    else
      assert forall i :: 1 <= i < |roles| ==> roles[i] == roles[1..][i - 1];
      {roles[0].id} + IdSet(roles[1..])
  }

  /** Choosing an id no box carries changes no box. */
  lemma BoxesForIrrelevant(roles: seq<Role>, chosen: set<int>, id: int)
    requires id !in IdSet(roles)
    ensures BoxesFor(roles, chosen + {id}) == BoxesFor(roles, chosen)
  {
  }

  /** On boxes rendered from roles with distinct ids, checking the box of `id` is choosing `id`. */
  lemma {:induction false} CheckFirstChooses(roles: seq<Role>, chosen: set<int>, id: int)
    requires DistinctIds(roles)
    ensures CheckFirst(BoxesFor(roles, chosen), id) == BoxesFor(roles, chosen + {id})
  {
    if roles != [] {
      var boxes := BoxesFor(roles, chosen);
      assert boxes == [Checkbox(roles[0].id, roles[0].id in chosen)] + BoxesFor(roles[1..], chosen);
      assert boxes[1..] == BoxesFor(roles[1..], chosen);
      if roles[0].id == id {
        assert id !in IdSet(roles[1..]) by {
          forall i | 0 <= i < |roles[1..]|
            ensures roles[1..][i].id != id
          {
            assert roles[1..][i] == roles[i + 1];
          }
        }
        BoxesForIrrelevant(roles[1..], chosen, id);
      } else {
        CheckFirstChooses(roles[1..], chosen, id);
      }
    }
  }

  /** Checking the boxes of some roles chooses their ids. */
  lemma {:induction false} CheckRolesChooses(catalog: seq<Role>, chosen: set<int>, roles: seq<Role>)
    requires DistinctIds(catalog)
    ensures CheckRoles(BoxesFor(catalog, chosen), roles) == BoxesFor(catalog, chosen + IdSet(roles))
    decreases roles
  {
    if roles == [] {
      assert chosen + IdSet(roles) == chosen;
    } else {
      CheckFirstChooses(catalog, chosen, roles[0].id);
      CheckRolesChooses(catalog, chosen + {roles[0].id}, roles[1..]);
      assert chosen + {roles[0].id} + IdSet(roles[1..]) == chosen + IdSet(roles);
    }
  }

  /** The catalog roles whose id is chosen, in catalog order. */
  function ChosenRoles(roles: seq<Role>, chosen: set<int>): (rs: seq<Role>)
    ensures forall r :: r in rs <==> r in roles && r.id in chosen
  {
    Filter(roles, (r: Role) => r.id in chosen)
  }

  /** Reading back boxes rendered from the catalog gives the chosen catalog roles, in order. */
  lemma {:induction false} ResolveOwnBoxes(part: seq<Role>, catalog: seq<Role>, chosen: set<int>)
    requires DistinctIds(catalog)
    requires forall i :: 0 <= i < |part| ==> part[i] in catalog
    ensures ResolveRoles(CheckedValues(BoxesFor(part, chosen)), catalog) == ChosenRoles(part, chosen)
  {
    if part != [] {
      var boxes := BoxesFor(part, chosen);
      assert boxes[1..] == BoxesFor(part[1..], chosen);
      assert forall i :: 0 <= i < |part[1..]| ==> part[1..][i] == part[i + 1];
      ResolveOwnBoxes(part[1..], catalog, chosen);
      if part[0].id in chosen {
        var k :| 0 <= k < |catalog| && catalog[k] == part[0];
        assert FindRole(catalog, part[0].id) == Some(part[0]) by {
          var r := FindRole(catalog, part[0].id);
          assert r.Some? by {
            assert catalog[k].id == part[0].id;
          }
          var i :| 0 <= i < |catalog| && catalog[i] == r.value && r.value.id == part[0].id
                   && forall j :: 0 <= j < i ==> catalog[j].id != part[0].id;
          assert i == k;
        }
        var ids := CheckedValues(boxes);
        assert ids == [part[0].id] + CheckedValues(boxes[1..]);
        assert ids[1..] == CheckedValues(boxes[1..]);
      }
    }
  }

  /** The user being edited, filled in by the corrected `openEditModal`, goes back unchanged:
      re-submitting without touching the form sends a PUT to that user with its own names,
      age and username, no password, and the catalog roles it holds, in catalog order. */
  lemma EditRoundTrip(e: Editor, u: UserRecord)
    requires DistinctIds(e.catalog)
    requires !Blank(u.firstName) && Trimmed(u.firstName)
    requires !Blank(u.lastName) && Trimmed(u.lastName)
    requires !Blank(u.username) && Trimmed(u.username)
    requires u.age.Some? && u.age.value != 0
    requires u.roles.Some? && exists r :: r in u.roles.value && r in e.catalog
    ensures HandleFormSubmit(OpenEdit(e, u)) ==
      Send(Request(Put, UserById(u.id), Some(UserBody(
        Some(u.id), u.firstName, u.lastName, IntToDecimal(u.age.value), u.username, None,
        ChosenRoles(e.catalog, IdSet(u.roles.value))))))
  {
    var e' := OpenEdit(e, u);
    var chosen := IdSet(u.roles.value);
    var unchecked := PopulateRoles(e.catalog);
    assert Uncheck(unchecked) == unchecked;
    CheckRolesChooses(e.catalog, {}, u.roles.value);
    assert {} + chosen == chosen;
    assert e'.form.boxes == BoxesFor(e.catalog, chosen);
    forall i | 0 <= i < |e.catalog|
      ensures e.catalog[i] in e.catalog
    {
    }
    ResolveOwnBoxes(e.catalog, e.catalog, chosen);
    var r :| r in u.roles.value && r in e.catalog;
    var k :| 0 <= k < |e.catalog| && e.catalog[k] == r;
    assert r.id in chosen;
    assert r in ChosenRoles(e.catalog, chosen);
    assert CheckedValues(e'.form.boxes) != [] by {
      assert e'.form.boxes[k].checked;
    }
    var t := IntToDecimal(u.age.value);
    assert !Blank(t) by {
      assert !IsJsSpace(t[0]);
    }
    assert Trim(t) == t;
  }

  /** As written, the same round trip is refused: the edited user's roles are never checked, so
      re-submitting an untouched edit form fails with "At least one role must be selected". */
  lemma EditRoundTripAsWritten(e: Editor, u: UserRecord)
    ensures HandleFormSubmit(OpenEditAsWritten(e, u)).Rejected?
    ensures RolesField in HandleFormSubmit(OpenEditAsWritten(e, u)).errors
  {
  }

  /** As written, a create-mode password of spaces passes validation, and the POST sent then
      has no password at all; the corrected handler refuses the same form with
      "Password is required for new users". */
  lemma BlankPasswordAsWritten(e: Editor)
    requires e.editing.None?
    requires !Blank(e.form.firstName) && !Blank(e.form.lastName) && !Blank(e.form.age) && !Blank(e.form.username)
    requires CheckedValues(e.form.boxes) != []
    requires e.form.password == " "
    ensures ValidateFormAsWritten(e.form, false) == map[]
    ensures ValidateForm(e.form, false) == map[Password := PasswordRequired]
    ensures GetFormData(e.form, e.catalog).password.None?
    ensures HandleFormSubmit(e).Send? && HandleFormSubmit(e).request.verb == Post
    ensures HandleFormSubmit(e).request.body.value.password.None?
    ensures HandleFormSubmitCorrected(e) == Rejected(map[Password := PasswordRequired])
  {
    assert IsJsSpace(e.form.password[0]);
  }

  /** `resetForm`, run when the modal closes: the inputs back to their empty defaults, every box
      unchecked, and no user being edited. */
  function ResetForm(e: Editor): (e': Editor)
    ensures e'.editing.None? && e'.catalog == e.catalog
    ensures e'.form.firstName == "" && e'.form.lastName == "" && e'.form.age == ""
    ensures e'.form.username == "" && e'.form.password == ""
    ensures CheckedValues(e'.form.boxes) == [] && Values(e'.form.boxes) == Values(e.form.boxes)
  {
    var boxes := Uncheck(e.form.boxes);
    assert forall i :: 0 <= i < |boxes| ==> !boxes[i].checked;
    Editor(e.catalog, None, Form("", "", "", "", "", boxes))
  }

  /** The form state after the request, and whether the list is reloaded. */
  datatype AfterSubmit = AfterSubmit(editor: Editor, reload: bool)

  /** The rest of `handleFormSubmit` once the request settles: on success the modal closes
      (resetting the form) and the list is reloaded; on failure the modal stays open with
      everything as it was. */
  function SubmitCompleted<T>(e: Editor, result: Fetched<T>): (r: AfterSubmit)
    ensures result.Failure? ==> r == AfterSubmit(e, false)
    ensures !result.Failure? ==> r == AfterSubmit(ResetForm(e), true)
  {
    if result.Failure? then AfterSubmit(e, false) else AfterSubmit(ResetForm(e), true)
  }

  /** `openDeleteModal`: the user is staged for deletion. */
  function OpenDelete(e: Editor, u: UserRecord): (e': Editor)
    ensures e'.editing == Some(u) && e'.form == e.form && e'.catalog == e.catalog
  {
    e.(editing := Some(u))
  }

  /** `confirmDelete`: nothing without a staged user, otherwise a DELETE of that user's URL. */
  function ConfirmDelete(e: Editor): (r: Option<Request<UserBody>>)
    ensures r.None? <==> e.editing.None?
    ensures r.Some? ==> r.value == Request(Delete, UserById(e.editing.value.id), None)
  {
    match e.editing
    case None => None
    case Some(u) => Some(Request(Delete, UserById(u.id), None))
  }

  /** Confirming right after staging deletes exactly the staged user. */
  lemma DeleteStaged(e: Editor, u: UserRecord)
    ensures ConfirmDelete(OpenDelete(e, u)) == Some(Request(Delete, UserById(u.id), None))
  {
  }
}

=== FILE: console_model.dfy ===
/**
 * The data the admin console (static/js/admin.js) handles: users as the REST
 * API returns them in JSON, the requests it sends, and the role label it shows
 * in the user table and next to each role checkbox.
 */
module ConsoleModel {
  import opened Wrappers
  import opened Text
  import opened Entity

  /** A user as the console receives it. `roles` is absent when the JSON has none. */
  datatype UserRecord = UserRecord(
    id: int,
    firstName: string,
    lastName: string,
    age: Option<int>,
    username: string,
    roles: Option<seq<Role>>)

  datatype Method = Get | Post | Put | Delete

  /** The endpoints of the REST API the console calls. */
  datatype Endpoint = Users | UserById(id: int) | Roles

  /** The URL of an endpoint, with an id rendered in decimal as a template literal does. */
  function Url(e: Endpoint): string {
    match e
    case Users => "/api/admin/users"
    case UserById(id) => "/api/admin/users/" + IntToDecimal(id)
    case Roles => "/api/admin/roles"
  }

  /** Different user ids give different URLs, so a request reaches the user it names. */
  lemma UserUrlInjective(a: int, b: int)
    requires Url(UserById(a)) == Url(UserById(b))
    ensures a == b
  {
    var prefix := "/api/admin/users/";
    assert (prefix + IntToDecimal(a))[|prefix|..] == IntToDecimal(a);
    assert (prefix + IntToDecimal(b))[|prefix|..] == IntToDecimal(b);
    IntToDecimalInjective(a, b);
  }

  /** A request: verb, endpoint and JSON body (absent for GET and DELETE). */
  datatype Request<B> = Request(verb: Method, endpoint: Endpoint, body: Option<B>)

  /** `role.name.replace('ROLE_', '')`: only the first "ROLE_" is removed. */
  function RoleLabel(r: Role): string {
    ReplaceFirst(r.name, "ROLE_", "")
  }

  /** A role named "ROLE_" + x is shown as x, whatever x holds. */
  lemma RoleLabelOfPrefixed(id: int, x: string)
    ensures RoleLabel(Role(id, "ROLE_" + x)) == x
    ensures RoleLabel(Role(id, "ROLE_ADMIN")) == "ADMIN"
  {
    ReplaceFirstOfPrefixed("ROLE_", x);
    ReplaceFirstOfPrefixed("ROLE_", "ADMIN");
    assert "ROLE_" + "ADMIN" == "ROLE_ADMIN";
  }

  /** A name without "ROLE_" is shown as it is; "ROLE_ROLE_X" keeps its second "ROLE_". */
  lemma RoleLabelOnlyFirst(id: int, x: string)
    ensures !Contains(x, "ROLE_") ==> RoleLabel(Role(id, x)) == x
    ensures RoleLabel(Role(id, "ROLE_ROLE_" + x)) == "ROLE_" + x
  {
    ReplaceFirstLength(x, "ROLE_", "");
    assert "ROLE_ROLE_" + x == "ROLE_" + ("ROLE_" + x);
    ReplaceFirstOfPrefixed("ROLE_", "ROLE_" + x);
  }

  function Labels(roles: seq<Role>): (ls: seq<string>)
    ensures |ls| == |roles|
    ensures forall i :: 0 <= i < |roles| ==> ls[i] == RoleLabel(roles[i])
  {
    if roles == [] then [] else [RoleLabel(roles[0])] + Labels(roles[1..])
  }

  /** The role cell of a user row: the labels joined by ", ", or "" when the user has no roles. */
  function RolesCell(roles: Option<seq<Role>>): (cell: string)
    ensures roles.None? || roles == Some([]) ==> cell == ""
    ensures roles.Some? && |roles.value| == 1 ==> cell == RoleLabel(roles.value[0])
  {
    match roles
    case None => ""
    case Some(rs) => Join(Labels(rs), ", ")
  }

  /** Each further role adds ", " and its label to the cell. */
  lemma RolesCellAppend(rs: seq<Role>, r: Role)
    requires rs != []
    ensures RolesCell(Some(rs + [r])) == RolesCell(Some(rs)) + ", " + RoleLabel(r)
  {
    assert Labels(rs + [r]) == Labels(rs) + [RoleLabel(r)];
    JoinAppend(Labels(rs), RoleLabel(r), ", ");
  }
}

=== FILE: console_search.dfy ===
/**
 * The admin console's search (static/js/admin.js handleSearch, performSearch,
 * clearSearch): a client-side filter over the users already loaded.
 */
module ConsoleSearch {
  import opened Wrappers
  import opened Text
  import opened Search
  import opened ConsoleModel

  /** The search test on a loaded user. */
  predicate Selected(u: UserRecord, keyword: string) {
    Matches(u.firstName, u.lastName, u.username, keyword)
  }

  /** `performSearch`: the loaded users whose first name, last name or username contains
      the keyword, ignoring ASCII case, in their loaded order and multiplicity. */
  function PerformSearch(users: seq<UserRecord>, keyword: string): (r: seq<UserRecord>)
    ensures IsSubsequence(r, users)
    ensures forall u :: u in r <==> u in users && Selected(u, keyword)
    ensures forall u :: multiset(r)[u] == if Selected(u, keyword) then multiset(users)[u] else 0
  {
    Filter(users, u => Selected(u, keyword))
  }

  /** What submitting the search form does: a keyword that trims to nothing clears the search
      and reloads the whole list from the server; any other shows the filtered users. */
  datatype SearchAction = ClearAndReload | ShowResults(keyword: string, users: seq<UserRecord>)

  /** `handleSearch`: the keyword is trimmed first; an empty one never filters. */
  function HandleSearch(input: string, users: seq<UserRecord>): (a: SearchAction)
    ensures a.ClearAndReload? <==> Blank(input)
    ensures a.ShowResults? ==> a.keyword == Trim(input) && a.keyword != [] && Trimmed(a.keyword)
    ensures a.ShowResults? ==> a.users == PerformSearch(users, Trim(input))
  {
    var keyword := Trim(input);
    if keyword == [] then ClearAndReload else ShowResults(keyword, PerformSearch(users, keyword))
  }

  /** Keywords that differ only in ASCII case find the same users. */
  lemma SearchIgnoresCase(users: seq<UserRecord>, k1: string, k2: string)
    requires Lower(k1) == Lower(k2)
    ensures PerformSearch(users, k1) == PerformSearch(users, k2)
  {
    forall u: UserRecord
      ensures Selected(u, k1) == Selected(u, k2)
    {
      MatchesIgnoresKeywordCase(u.firstName, u.lastName, u.username, k1);
      MatchesIgnoresKeywordCase(u.firstName, u.lastName, u.username, k2);
    }
    FilterCongruent(users, u => Selected(u, k1), u => Selected(u, k2));
  }

  /** Searching the results again with the same keyword changes nothing. */
  lemma SearchIdempotent(users: seq<UserRecord>, keyword: string)
    ensures PerformSearch(PerformSearch(users, keyword), keyword) == PerformSearch(users, keyword)
  {
    FilterIdempotent(users, u => Selected(u, keyword));
  }

  /** Of two users, one matching and one not, the search keeps the matching one only. */
  lemma SearchPair(a: UserRecord, b: UserRecord, keyword: string)
    requires Selected(a, keyword) && !Selected(b, keyword)
    ensures PerformSearch([a, b], keyword) == [a]
  {
    assert [a, b][1..] == [b];
    assert [b][1..] == [];
  }

  /** "smith" against John Smith and Anna Lee finds John Smith only. */
  lemma SmithExample(john: UserRecord, anna: UserRecord)
    requires john == UserRecord(1, "John", "Smith", Some(30), "john@mail.com", None)
    requires anna == UserRecord(2, "Anna", "Lee", Some(25), "anna@mail.com", None)
    ensures PerformSearch([john, anna], "smith") == [john]
  {
    SmithMatches();
    AnnaDoesNotMatch();
    SearchPair(john, anna, "smith");
  }

  lemma SmithMatches()
    ensures FieldMatches("Smith", "smith")
  {
    assert Lower("smith") == "smith";
    assert Lower("Smith") == "smith";
    assert OccursAt(Lower("Smith"), Lower("smith"), 0);
  }

  lemma AnnaDoesNotMatch()
    ensures !Matches("Anna", "Lee", "anna@mail.com", "smith")
  {
    var k := Lower("smith");
    assert k[0] == 's';
    LowerAvoids("Anna", 's');
    LowerAvoids("Lee", 's');
    LowerAvoids("anna@mail.com", 's');
    MissingFirstChar(Lower("Anna"), k);
    MissingFirstChar(Lower("Lee"), k);
    MissingFirstChar(Lower("anna@mail.com"), k);
  }
}

=== FILE: entity.dfy ===
/**
 * The `User` entity (model/User.java): its fields, the Bean Validation
 * constraints declared on them, the role label `getRolesString`, `addRole`,
 * and the Spring Security view of the account (`getAuthorities` and the four
 * account-status flags).
 */
module Entity {
  import opened Wrappers
  import opened Text

  /** A role: a database identifier and a name such as "ROLE_ADMIN". */
  datatype Role = Role(id: int, name: string)

  /** A user account. `id` is null until the database assigns one; `age` is a nullable Integer. */
  datatype User = User(
    id: Option<int>,
    firstName: string,
    lastName: string,
    age: Option<int>,
    username: string,
    password: Option<string>,
    roles: set<Role>)

  /** One failed constraint, as Bean Validation reports it: the field and the constraint's message. */
  datatype Violation = Violation(field: string, message: string)

  const FirstNameMessage := "First name must contain only letters A-Z or a-z"
  const LastNameMessage := "Last name must contain only letters A-Z or a-z"
  const AgeMinMessage := "Age must be at least 1"
  const AgeMaxMessage := "Age must be less than 150"
  const UsernameMessage := "Provide a valid email address"

  predicate IsAsciiLetter(c: char) {
    'A' <= c <= 'Z' || 'a' <= c <= 'z'
  }

  /** `^[A-Za-z]+$` matched against the whole value. */
  predicate LettersOnly(s: string) {
    |s| > 0 && forall i :: 0 <= i < |s| ==> IsAsciiLetter(s[i])
  }

  /** `@Min(1)` and `@Max(150)`; a null age satisfies both. */
  predicate AgeInRange(age: Option<int>) {
    age.None? || 1 <= age.value <= 150
  }

  /** The regex `.` of java.util.regex: any character except a line terminator. */
  predicate IsRegexDot(c: char) {
    var n := c as int;
    n != 0x0A && n != 0x0D && n != 0x85 && n != 0x2028 && n != 0x2029
  }

  /** The whole value matches `.+@.+\..+`: a non-empty part, '@', a non-empty part,
      '.', a non-empty part, with no line terminator anywhere. */
  predicate EmailShaped(s: string) {
    && (forall i :: 0 <= i < |s| ==> IsRegexDot(s[i]))
    && exists a, d :: 1 <= a && a + 2 <= d && d + 2 <= |s| && s[a] == '@' && s[d] == '.'
  }

  /** A linear-time matcher for `.+@.+\..+`: the earliest '@' that has something before
      it and the latest '.' that has something after it are the best candidates. */
  function MatchesUsernamePattern(s: string): (b: bool)
    ensures b <==> EmailShaped(s)
  {
    if |s| < 2 || exists i :: 0 <= i < |s| && !IsRegexDot(s[i]) then false
    else
      match (FirstIndexOf(s, '@', 1), LastIndexOf(s, '.', |s| - 1))
      case (Some(a), Some(d)) => a + 2 <= d
      case _ => false
  }

  /** Every declared constraint holds (the `@Email` check is not part of this model). */
  predicate Valid(u: User) {
    && LettersOnly(u.firstName)
    && LettersOnly(u.lastName)
    && AgeInRange(u.age)
    && EmailShaped(u.username)
  }

  /** The violations binding reports for a user: one per failed constraint, and nothing else. */
  function Violations(u: User): (v: set<Violation>)
    ensures v <= {Violation("firstName", FirstNameMessage), Violation("lastName", LastNameMessage),
                  Violation("age", AgeMinMessage), Violation("age", AgeMaxMessage),
                  Violation("username", UsernameMessage)}
    ensures v == {} <==> Valid(u)
    ensures Violation("firstName", FirstNameMessage) in v <==> !LettersOnly(u.firstName)
    ensures Violation("lastName", LastNameMessage) in v <==> !LettersOnly(u.lastName)
    ensures Violation("age", AgeMinMessage) in v <==> u.age.Some? && u.age.value < 1
    ensures Violation("age", AgeMaxMessage) in v <==> u.age.Some? && u.age.value > 150
    ensures Violation("username", UsernameMessage) in v <==> !EmailShaped(u.username)
  {
    (if LettersOnly(u.firstName) then {} else {Violation("firstName", FirstNameMessage)})
    + (if LettersOnly(u.lastName) then {} else {Violation("lastName", LastNameMessage)})
    + (if u.age.Some? && u.age.value < 1 then {Violation("age", AgeMinMessage)} else {})
    + (if u.age.Some? && u.age.value > 150 then {Violation("age", AgeMaxMessage)} else {})
    + (if MatchesUsernamePattern(u.username) then {} else {Violation("username", UsernameMessage)})
  }

  /** Both ends of the age range are accepted, and nothing outside it. */
  lemma AgeBounds(u: User)
    requires LettersOnly(u.firstName) && LettersOnly(u.lastName) && EmailShaped(u.username)
    ensures u.age == Some(1) ==> Violations(u) == {}
    ensures u.age == Some(150) ==> Violations(u) == {}
    ensures u.age == Some(0) || u.age == Some(151) ==> Violations(u) != {}
  {
  }

  /** The part of a role name `getRolesString` shows: every "ROLE" removed. */
  function RolePart(r: Role): string {
    ReplaceAll(r.name, "ROLE", "")
  }

  /** The total length of the role names. */
  function NamesLength(order: seq<Role>): nat {
    if order == [] then 0 else |order[0].name| + NamesLength(order[1..])
  }

  /** `getRolesString`: the role parts concatenated with no separator, in the role set's
      iteration order, which is given here as `order`. It is never longer than the names,
      and as long exactly when no name contains "ROLE". */
  function RolesString(order: seq<Role>): (r: string)
    ensures order == [] ==> r == ""
    ensures |r| <= NamesLength(order)
    ensures |r| == NamesLength(order) <==> forall i :: 0 <= i < |order| ==> !Contains(order[i].name, "ROLE")
  {
    if order == [] then ""
    else
      ReplaceAllRemoves(order[0].name, "ROLE");
      var rest := RolesString(order[1..]);
      assert (forall i :: 0 <= i < |order| ==> !Contains(order[i].name, "ROLE"))
        <==> !Contains(order[0].name, "ROLE")
             && forall i :: 0 <= i < |order[1..]| ==> !Contains(order[1..][i].name, "ROLE")
      by {
        assert forall i :: 1 <= i < |order| ==> order[i] == order[1..][i - 1];
      }
      RolePart(order[0]) + rest
  }

  /** Which characters of a role name survive: the name cut at its leftmost non-overlapping
      occurrences of "ROLE" gives pieces, and the role contributes those pieces, in order,
      with nothing between them. */
  lemma RolePartPieces(r: Role)
    ensures RolesString([r]) == RolePart(r)
    ensures exists pieces :: LeftmostPieces(pieces, "ROLE") && r.name == Join(pieces, "ROLE")
                             && RolesString([r]) == Join(pieces, "")
  {
    assert [r][1..] == [];
    ReplaceAllPieces(r.name, "ROLE", "");
  }

  /** The part each role contributes, in order: the stream's `map` step. */
  function RoleParts(order: seq<Role>): (ps: seq<string>)
    ensures |ps| == |order|
    ensures forall i :: 0 <= i < |order| ==> ps[i] == RolePart(order[i])
  {
    seq(|order|, i requires 0 <= i < |order| => RolePart(order[i]))
  }

  /** `getRolesString` is the role parts collected with `Collectors.joining()`. */
  lemma {:induction false} RolesStringIsJoin(order: seq<Role>)
    ensures RolesString(order) == Join(RoleParts(order), "")
    decreases |order|
  {
    if order != [] {
      RolesStringIsJoin(order[1..]);
      var p0 := RolePart(order[0]);
      assert RoleParts(order) == [p0] + RoleParts(order[1..]);
      JoinNoSeparatorConcat([p0], RoleParts(order[1..]));
    }
  }

  /** The labels of a concatenation of role lists are the concatenated labels. */
  lemma {:induction false} RolesStringConcat(a: seq<Role>, b: seq<Role>)
    ensures RolesString(a + b) == RolesString(a) + RolesString(b)
  {
    RolesStringIsJoin(a);
    RolesStringIsJoin(b);
    RolesStringIsJoin(a + b);
    assert RoleParts(a + b) == RoleParts(a) + RoleParts(b);
    JoinNoSeparatorConcat(RoleParts(a), RoleParts(b));
  }

  /** A role named "ROLE" + x, with no further "ROLE" in x, shows as x. */
  lemma RolesStringOfPrefixed(id: int, x: string)
    requires !Contains(x, "ROLE")
    ensures RolesString([Role(id, "ROLE" + x)]) == x
  {
    IndexOfPrefix("ROLE", x);
    assert ("ROLE" + x)[4..] == x;
    ReplaceAllRemoves(x, "ROLE");
    assert [Role(id, "ROLE" + x)][1..] == [];
  }

  /** "ROLE_ADMIN" shows as "_ADMIN", not "ADMIN". */
  lemma AdminRoleString(id: int)
    ensures RolesString([Role(id, "ROLE_ADMIN")]) == "_ADMIN"
  {
    assert "_ADMIN"[0..4][0] != "ROLE"[0];
    assert "_ADMIN"[1..5][0] != "ROLE"[0];
    assert "_ADMIN"[2..6][0] != "ROLE"[0];
    assert IndexOf("_ADMIN", "ROLE", 0) == None;
    RolesStringOfPrefixed(id, "_ADMIN");
    assert "ROLE" + "_ADMIN" == "ROLE_ADMIN";
  }

  /** `addRole`: set insertion. The role is present afterwards, no other role is added or
      lost, the set grows by one exactly when the role was new, and nothing else changes. */
  function AddRole(u: User, r: Role): (u': User)
    ensures r in u'.roles
    ensures u'.roles - {r} == u.roles - {r}
    ensures |u'.roles| == if r in u.roles then |u.roles| else |u.roles| + 1
    ensures u'.(roles := u.roles) == u
  {
    assert u.roles * {r} == if r in u.roles then {r} else {};
    u.(roles := u.roles + {r})
  }

  /** Adding a role twice is adding it once. */
  lemma AddRoleIdempotent(u: User, r: Role)
    ensures AddRole(AddRole(u, r), r) == AddRole(u, r)
  {
  }

  /** `getAuthorities`: the granted authorities are exactly the user's roles. */
  function Authorities(u: User): (a: set<Role>)
    ensures forall r :: r in a <==> r in u.roles
  {
    u.roles
  }

  /** Granting a role through `addRole` grants exactly that one more authority. */
  lemma AuthoritiesFollowAddRole(u: User, r: Role)
    ensures Authorities(AddRole(u, r)) == Authorities(u) + {r}
    ensures r !in Authorities(u) ==> |Authorities(AddRole(u, r))| == |Authorities(u)| + 1
  {
  }

  /** The four account-status answers Spring Security asks a `UserDetails` for. */
  datatype AccountStatus = AccountStatus(nonExpired: bool, nonLocked: bool, credentialsNonExpired: bool, enabled: bool)

  /** `isAccountNonExpired`, `isAccountNonLocked`, `isCredentialsNonExpired`, `isEnabled`:
      no account is ever expired, locked or disabled, whatever its fields hold. */
  function Status(u: User): (s: AccountStatus)
    ensures s.nonExpired && s.nonLocked && s.credentialsNonExpired && s.enabled
  {
    AccountStatus(true, true, true, true)
  }
}

=== FILE: search.dfy ===
/**
 * The keyword search both the admin console (admin.js performSearch) and the
 * server-rendered admin pages (AdminController.searchUsers) apply to a user
 * list: keep, in list order, the users whose lower-cased first name, last
 * name or username contains the lower-cased keyword.
 */
module Search {
  import opened Text

  /** `a` is `b` with some elements dropped, the rest in their original order
      (matched greedily, which finds an embedding whenever one exists). */
  predicate IsSubsequence<T(==)>(a: seq<T>, b: seq<T>)
    decreases |b|
  {
    if a == [] then true
    else if b == [] then false
    else if a[0] == b[0] then IsSubsequence(a[1..], b[1..])
    else IsSubsequence(a, b[1..])
  }

  /** `xs.filter(keep)` / `stream().filter(keep).collect(toList())`. */
  function Filter<T(==,!new)>(xs: seq<T>, keep: T -> bool): (r: seq<T>)
    ensures IsSubsequence(r, xs)
    ensures forall x :: x in r <==> x in xs && keep(x)
    ensures forall x :: multiset(r)[x] == if keep(x) then multiset(xs)[x] else 0
  {
    if xs == [] then []
    else
      var rest := Filter(xs[1..], keep);
      assert xs == [xs[0]] + xs[1..];
      if keep(xs[0]) then
        [xs[0]] + rest
      else
        assert rest == [] || rest[0] != xs[0] by {
          if rest != [] {
            assert rest[0] in rest;
          }
        }
        rest
  }

  /** Filtering twice with the same test is filtering once. */
  lemma {:induction false} FilterIdempotent<T(!new)>(xs: seq<T>, keep: T -> bool)
    ensures Filter(Filter(xs, keep), keep) == Filter(xs, keep)
  {
    if xs != [] {
      FilterIdempotent(xs[1..], keep);
      if keep(xs[0]) {
        assert ([xs[0]] + Filter(xs[1..], keep))[1..] == Filter(xs[1..], keep);
      }
    }
  }

  /** Filtering a concatenation filters each part. */
  lemma {:induction false} FilterConcat<T(!new)>(a: seq<T>, b: seq<T>, keep: T -> bool)
    ensures Filter(a + b, keep) == Filter(a, keep) + Filter(b, keep)
  {
    if a == [] {
      assert a + b == b;
    } else {
      assert (a + b)[1..] == a[1..] + b;
      FilterConcat(a[1..], b, keep);
    }
  }

  /** A test every element passes keeps the whole list. */
  lemma {:induction false} FilterKeepsAll<T(!new)>(xs: seq<T>, keep: T -> bool)
    requires forall x :: keep(x)
    ensures Filter(xs, keep) == xs
  {
    if xs != [] {
      FilterKeepsAll(xs[1..], keep);
      assert xs == [xs[0]] + xs[1..];
    }
  }

  /** Two tests that agree everywhere filter alike. */
  lemma {:induction false} FilterCongruent<T(!new)>(xs: seq<T>, f: T -> bool, g: T -> bool)
    requires forall x :: f(x) == g(x)
    ensures Filter(xs, f) == Filter(xs, g)
  {
    if xs != [] {
      FilterCongruent(xs[1..], f, g);
    }
  }

  /** `field.toLowerCase().includes(keyword.toLowerCase())`, the case folding restricted to ASCII. */
  predicate FieldMatches(field: string, keyword: string) {
    Contains(Lower(field), Lower(keyword))
  }

  /** The search test on one user: any of the three fields contains the keyword. */
  predicate Matches(firstName: string, lastName: string, username: string, keyword: string) {
    FieldMatches(firstName, keyword) || FieldMatches(lastName, keyword) || FieldMatches(username, keyword)
  }

  /** The empty keyword matches every user. */
  lemma EmptyKeywordMatches(firstName: string, lastName: string, username: string)
    ensures Matches(firstName, lastName, username, "")
  {
    ContainsEmpty(Lower(firstName));
  }

  /** The test ignores the case of the keyword: only its lower-cased form counts. */
  lemma MatchesIgnoresKeywordCase(firstName: string, lastName: string, username: string, keyword: string)
    ensures Matches(firstName, lastName, username, keyword) == Matches(firstName, lastName, username, Lower(keyword))
  {
    LowerIdempotent(keyword);
  }
}

=== FILE: text.dfy ===
/**
 * The string operations the console and the server apply to user data:
 * JavaScript's `trim`, ASCII lower-casing, `indexOf`/`includes`/`contains`,
 * `String.prototype.replace` (first occurrence), Java's `String.replace`
 * (every occurrence), joining, and the decimal rendering of an integer.
 */
module Text {
  import opened Wrappers

  /** The code points ECMAScript's String.prototype.trim removes:
      WhiteSpace (including every Zs space) and LineTerminator. */
  predicate IsJsSpace(c: char) {
    var n := c as int;
    n == 0x09 || n == 0x0A || n == 0x0B || n == 0x0C || n == 0x0D || n == 0x20 || n == 0xA0
    || n == 0x1680 || (0x2000 <= n <= 0x200A) || n == 0x2028 || n == 0x2029 || n == 0x202F
    || n == 0x205F || n == 0x3000 || n == 0xFEFF
  }

  /** A string that trims to nothing. */
  predicate Blank(s: string) {
    forall i :: 0 <= i < |s| ==> IsJsSpace(s[i])
  }

  /** A string with no trimmable character at either end. */
  predicate Trimmed(s: string) {
    s == [] || (!IsJsSpace(s[0]) && !IsJsSpace(s[|s| - 1]))
  }

  function TrimStart(s: string): (r: string)
    ensures |r| <= |s| && r == s[|s| - |r|..]
    ensures Blank(s[..|s| - |r|])
    ensures r == [] || !IsJsSpace(r[0])
  {
    if s != [] && IsJsSpace(s[0]) then
      var r := TrimStart(s[1..]);
      var k := |s| - |r|;
      assert s[1..][k - 1..] == s[k..];
      assert forall i :: 1 <= i < k ==> s[..k][i] == s[1..][..k - 1][i - 1];
      r
    else s
  }

  function TrimEnd(s: string): (r: string)
    ensures |r| <= |s| && r == s[..|r|]
    ensures Blank(s[|r|..])
    ensures r == [] || !IsJsSpace(r[|r| - 1])
  {
    if s != [] && IsJsSpace(s[|s| - 1]) then
      var r := TrimEnd(s[..|s| - 1]);
      assert s[..|s| - 1][..|r|] == s[..|r|];
      assert s[|r|..] == s[..|s| - 1][|r|..] + [s[|s| - 1]];
      r
    else s
  }

  /** Trimming the end of what `TrimStart` leaves gives an infix of `s` with white space
      both before and after it. */
  lemma {:induction false} TrimBounds(s: string, t: string, r: string)
    requires |t| <= |s| && t == s[|s| - |t|..]
    requires |r| <= |t| && r == t[..|r|] && Blank(t[|r|..])
    ensures r == s[|s| - |t|..|s| - |t| + |r|] && Blank(s[|s| - |t| + |r|..])
  {
    var i := |s| - |t|;
    var j := i + |r|;
    assert s[i..][..|r|] == s[i..j];
    assert s[j..] == t[|r|..];
  }

  /** String.prototype.trim: the longest infix with no trimmable character at either end. */
  function Trim(s: string): (r: string)
    ensures exists i, j :: 0 <= i <= j <= |s| && r == s[i..j] && Blank(s[..i]) && Blank(s[j..])
    ensures Trimmed(r)
    ensures r == [] <==> Blank(s)
    ensures Trimmed(s) ==> r == s
  {
    var t := TrimStart(s);
    var r := TrimEnd(t);
    var i := |s| - |t|;
    TrimBounds(s, t, r);
    assert r == [] ==> Blank(s) by {
      if r == [] {
        assert Blank(t);
        assert s == s[..i] + t;
      }
    }
    r
  }

  /** Trimming twice is trimming once. */
  lemma TrimIdempotent(s: string)
    ensures Trim(Trim(s)) == Trim(s)
  {
  }

  /** The ASCII case mapping of toLowerCase: 'A'..'Z' to 'a'..'z', everything else unchanged. */
  function LowerChar(c: char): char {
    if 'A' <= c <= 'Z' then (c as int + 32) as char else c
  }

  function Lower(s: string): (r: string)
    ensures |r| == |s|
    ensures forall i :: 0 <= i < |s| ==> r[i] == LowerChar(s[i])
  {
    if s == [] then [] else [LowerChar(s[0])] + Lower(s[1..])
  }

  /** Lower-casing is idempotent. */
  lemma LowerIdempotent(s: string)
    ensures Lower(Lower(s)) == Lower(s)
  {
    assert forall i :: 0 <= i < |s| ==> Lower(Lower(s))[i] == Lower(s)[i];
  }

  /** `pat` occurs in `s` starting at position `i`. */
  predicate OccursAt(s: string, pat: string, i: int) {
    0 <= i && i + |pat| <= |s| && s[i..i + |pat|] == pat
  }

  /** `s.indexOf(pat, from)`: the first occurrence at or after `from`. */
  function IndexOf(s: string, pat: string, from: nat): (r: Option<nat>)
    ensures r.Some? ==> from <= r.value && OccursAt(s, pat, r.value)
    ensures r.Some? ==> forall j :: from <= j < r.value ==> !OccursAt(s, pat, j)
    ensures r.None? ==> forall j :: from <= j ==> !OccursAt(s, pat, j)
    decreases |s| - from
  {
    if from + |pat| > |s| then None
    else if s[from..from + |pat|] == pat then Some(from)
    else IndexOf(s, pat, from + 1)
  }

  /** `hay.includes(needle)` / `hay.contains(needle)`. */
  function Contains(hay: string, needle: string): (b: bool)
    ensures b <==> exists i :: OccursAt(hay, needle, i)
  {
    IndexOf(hay, needle, 0).Some?
  }

  /** Every string contains the empty string. */
  lemma ContainsEmpty(hay: string)
    ensures Contains(hay, "")
  {
    assert OccursAt(hay, "", 0);
  }

  /** A string begins with an occurrence of itself. */
  lemma IndexOfPrefix(pat: string, x: string)
    ensures IndexOf(pat + x, pat, 0) == Some(0)
  {
    assert (pat + x)[0..|pat|] == pat;
  }

  /** The first position at or after `from` holding `c`. */
  function FirstIndexOf(s: string, c: char, from: nat): (r: Option<nat>)
    ensures r.Some? ==> from <= r.value < |s| && s[r.value] == c
    ensures r.Some? ==> forall j :: from <= j < r.value ==> s[j] != c
    ensures r.None? ==> forall j :: from <= j < |s| ==> s[j] != c
    decreases |s| - from
  {
    if from >= |s| then None
    else if s[from] == c then Some(from)
    else FirstIndexOf(s, c, from + 1)
  }

  /** The last position before `end` holding `c`. */
  function LastIndexOf(s: string, c: char, end: nat): (r: Option<nat>)
    requires end <= |s|
    ensures r.Some? ==> r.value < end && s[r.value] == c
    ensures r.Some? ==> forall j :: r.value < j < end ==> s[j] != c
    ensures r.None? ==> forall j :: 0 <= j < end ==> s[j] != c
  {
    if end == 0 then None
    else if s[end - 1] == c then Some(end - 1)
    else LastIndexOf(s, c, end - 1)
  }

  /** JavaScript `s.replace(pat, rep)` with a string pattern: only the first occurrence is replaced. */
  function ReplaceFirst(s: string, pat: string, rep: string): (r: string)
  {
    match IndexOf(s, pat, 0)
    case None => s
    case Some(i) => s[..i] + rep + s[i + |pat|..]
  }

  /** A string that starts with the pattern loses exactly that leading occurrence. */
  lemma ReplaceFirstOfPrefixed(pat: string, x: string)
    ensures ReplaceFirst(pat + x, pat, "") == x
  {
    IndexOfPrefix(pat, x);
    assert (pat + x)[|pat|..] == x;
  }

  /** Without an occurrence, replace leaves the string alone; with one, the length changes by |rep| - |pat|. */
  lemma ReplaceFirstLength(s: string, pat: string, rep: string)
    ensures !Contains(s, pat) ==> ReplaceFirst(s, pat, rep) == s
    ensures Contains(s, pat) ==> |ReplaceFirst(s, pat, rep)| == |s| - |pat| + |rep|
  {
  }

  /** Java `s.replace(pat, rep)`: every occurrence, scanning left to right without overlap. */
  function ReplaceAll(s: string, pat: string, rep: string): (r: string)
    requires |pat| > 0
    decreases |s|
  {
    match IndexOf(s, pat, 0)
    case None => s
    case Some(i) => s[..i] + rep + ReplaceAll(s[i + |pat|..], pat, rep)
  }

  /** Removing every occurrence leaves the string unchanged exactly when there is none, and otherwise shortens it. */
  lemma {:induction false} ReplaceAllRemoves(s: string, pat: string)
    requires |pat| > 0
    ensures |ReplaceAll(s, pat, "")| <= |s|
    ensures ReplaceAll(s, pat, "") == s <==> !Contains(s, pat)
    ensures Contains(s, pat) ==> |ReplaceAll(s, pat, "")| < |s|
    decreases |s|
  {
    match IndexOf(s, pat, 0)
    case None =>
    case Some(i) =>
      ReplaceAllRemoves(s[i + |pat|..], pat);
      assert |ReplaceAll(s, pat, "")| <= |s| - |pat|;
  }

  /** `s` cut at the occurrences Java's `replace` finds: every piece but the last runs up to
      the leftmost occurrence after the previous cut (no occurrence starts inside it or
      straddles its end), and the last piece holds none. */
  predicate LeftmostPieces(pieces: seq<string>, pat: string)
    requires |pat| > 0
  {
    && |pieces| > 0
    && (forall k :: 0 <= k < |pieces| - 1 ==> !Contains(pieces[k] + pat[..|pat| - 1], pat))
    && !Contains(pieces[|pieces| - 1], pat)
  }

  /** Joining one more leading part adds it and one separator. */
  lemma {:induction false} JoinCons(x: string, tail: seq<string>, sep: string)
    requires |tail| > 0
    ensures Join([x] + tail, sep) == x + sep + Join(tail, sep)
  {
    assert ([x] + tail)[1..] == tail;
  }

  /** The text before the leftmost occurrence, followed by all but the last character of the
      pattern, holds no occurrence. */
  lemma {:induction false} BeforeLeftmost(s: string, pat: string, i: nat)
    requires |pat| > 0
    requires IndexOf(s, pat, 0) == Some(i)
    ensures !Contains(s[..i] + pat[..|pat| - 1], pat)
  {
    var pre := s[..i] + pat[..|pat| - 1];
    assert s[i..i + |pat|] == pat;
    assert pre == s[..i + |pat| - 1];
    forall j | OccursAt(pre, pat, j)
      ensures false
    {
      assert pre[j..j + |pat|] == s[j..j + |pat|];
      assert OccursAt(s, pat, j);
    }
  }

  /** One step of the cut keeps the pieces leftmost: the text before the leftmost occurrence
      becomes the first piece. */
  lemma {:induction false} PiecesConsLeftmost(s: string, pat: string, i: nat, tail: seq<string>)
    requires |pat| > 0
    requires IndexOf(s, pat, 0) == Some(i)
    requires LeftmostPieces(tail, pat)
    ensures LeftmostPieces([s[..i]] + tail, pat)
  {
    var pieces := [s[..i]] + tail;
    BeforeLeftmost(s, pat, i);
    assert forall k :: 1 <= k < |pieces| ==> pieces[k] == tail[k - 1];
  }

  /** One step of the cut rebuilds `s`: the first piece, the occurrence, then the rest. */
  lemma {:induction false} PiecesConsJoin(s: string, pat: string, i: nat, tail: seq<string>)
    requires |pat| > 0 && |tail| > 0
    requires IndexOf(s, pat, 0) == Some(i)
    requires s[i + |pat|..] == Join(tail, pat)
    ensures s == Join([s[..i]] + tail, pat)
  {
    JoinCons(s[..i], tail, pat);
    assert s[i..i + |pat|] == pat;
    assert s == s[..i] + s[i..i + |pat|] + s[i + |pat|..];
  }

  /** One step of the cut in the result: the first piece, the replacement, then the rest. */
  lemma {:induction false} PiecesConsReplace(s: string, pat: string, rep: string, i: nat, tail: seq<string>)
    requires |pat| > 0 && |tail| > 0
    requires IndexOf(s, pat, 0) == Some(i)
    requires ReplaceAll(s[i + |pat|..], pat, rep) == Join(tail, rep)
    ensures ReplaceAll(s, pat, rep) == Join([s[..i]] + tail, rep)
  {
    JoinCons(s[..i], tail, rep);
  }

  /** What `replace` keeps: cutting `s` into pieces at its leftmost non-overlapping occurrences
      of `pat`, the result is those same pieces joined with `rep` in place of `pat`. */
  lemma {:induction false} ReplaceAllPieces(s: string, pat: string, rep: string)
    requires |pat| > 0
    ensures exists pieces :: LeftmostPieces(pieces, pat) && s == Join(pieces, pat)
                             && ReplaceAll(s, pat, rep) == Join(pieces, rep)
    decreases |s|
  {
    match IndexOf(s, pat, 0)
    case None =>
      assert LeftmostPieces([s], pat) && s == Join([s], pat) && ReplaceAll(s, pat, rep) == Join([s], rep);
    case Some(i) =>
      var rest := s[i + |pat|..];
      ReplaceAllPieces(rest, pat, rep);
      var tail :| LeftmostPieces(tail, pat) && rest == Join(tail, pat)
                  && ReplaceAll(rest, pat, rep) == Join(tail, rep);
      PiecesConsLeftmost(s, pat, i, tail);
      PiecesConsJoin(s, pat, i, tail);
      PiecesConsReplace(s, pat, rep, i, tail);
      var pieces := [s[..i]] + tail;
      assert LeftmostPieces(pieces, pat) && s == Join(pieces, pat) && ReplaceAll(s, pat, rep) == Join(pieces, rep);
  }

  /** The occurrences already removed are not looked at again: removal can create a new occurrence. */
  lemma ReplaceAllIsSinglePass()
    ensures ReplaceAll("RROLEOLE", "ROLE", "") == "ROLE"
  {
    assert IndexOf("RROLEOLE", "ROLE", 0) == Some(1) by {
      assert "RROLEOLE"[0..4][1] != "ROLE"[1];
      assert OccursAt("RROLEOLE", "ROLE", 1);
    }
    assert IndexOf("ROLE", "ROLE", 0) == Some(0) by {
      assert OccursAt("ROLE", "ROLE", 0);
    }
    assert "RROLEOLE"[5..] == "OLE";
    assert IndexOf("OLE", "ROLE", 0) == None;
  }

  /** `parts.join(sep)`; with the empty separator, Java's `Collectors.joining()`. */
  function Join(parts: seq<string>, sep: string): (r: string)
  {
    if |parts| == 0 then ""
    else if |parts| == 1 then parts[0]
    else parts[0] + sep + Join(parts[1..], sep)
  }

  /** Appending a part adds one separator and the part. */
  lemma {:induction false} JoinAppend(parts: seq<string>, x: string, sep: string)
    requires |parts| > 0
    ensures Join(parts + [x], sep) == Join(parts, sep) + sep + x
    decreases |parts|
  {
    if |parts| == 1 {
      assert parts + [x] == [parts[0], x];
      assert [parts[0], x][1..] == [x];
    } else {
      assert (parts + [x])[1..] == parts[1..] + [x];
      JoinAppend(parts[1..], x, sep);
    }
  }

  /** Joining with no separator is concatenation, so it distributes over `+`. */
  lemma {:induction false} JoinNoSeparatorConcat(a: seq<string>, b: seq<string>)
    ensures Join(a + b, "") == Join(a, "") + Join(b, "")
    decreases |a|
  {
    if |a| == 0 {
      assert a + b == b;
    } else if |a| == 1 {
      if |b| == 0 {
        assert a + b == a;
      } else {
        assert (a + b)[1..] == b;
      }
    } else {
      assert (a + b)[1..] == a[1..] + b;
      JoinNoSeparatorConcat(a[1..], b);
    }
  }

  function DigitChar(d: int): (c: char)
    requires 0 <= d < 10
    ensures '0' <= c <= '9'
  {
    ('0' as int + d) as char
  }

  predicate AllDigits(s: string) {
    forall i :: 0 <= i < |s| ==> '0' <= s[i] <= '9'
  }

  /** The decimal numeral of a natural number, most significant digit first, no leading zeros. */
  function NatToDecimal(n: nat): (r: string)
    ensures |r| > 0 && AllDigits(r)
    ensures |r| > 1 ==> r[0] != '0'
  {
    if n < 10 then [DigitChar(n)] else NatToDecimal(n / 10) + [DigitChar(n % 10)]
  }

  /** The value a decimal numeral denotes. */
  function DecimalValue(s: string): nat
    requires AllDigits(s)
  {
    if s == [] then 0 else DecimalValue(s[..|s| - 1]) * 10 + (s[|s| - 1] as int - '0' as int)
  }

  /** Reading back a rendered number gives the number. */
  lemma {:induction false} DecimalRoundTrip(n: nat)
    ensures DecimalValue(NatToDecimal(n)) == n
  {
    if n >= 10 {
      var r := NatToDecimal(n);
      assert r[..|r| - 1] == NatToDecimal(n / 10);
      DecimalRoundTrip(n / 10);
    }
  }

  /** JavaScript `String(n)` for an integer-valued number. */
  function IntToDecimal(n: int): (r: string)
    ensures |r| > 0 && Trimmed(r)
    ensures r[0] == '-' <==> n < 0
  {
    if n < 0 then "-" + NatToDecimal(-n) else NatToDecimal(n)
  }

  /** Different natural numbers render differently. */
  lemma {:induction false} NatToDecimalInjective(a: nat, b: nat)
    requires NatToDecimal(a) == NatToDecimal(b)
    ensures a == b
  {
    DecimalRoundTrip(a);
    DecimalRoundTrip(b);
  }

  /** Different integers render differently. */
  lemma {:induction false} IntToDecimalInjective(a: int, b: int)
    requires IntToDecimal(a) == IntToDecimal(b)
    ensures a == b
  {
    var t := IntToDecimal(a);
    if a < 0 {
      assert b < 0;
      assert NatToDecimal(-a) == t[1..] == NatToDecimal(-b);
      NatToDecimalInjective(-a, -b);
    } else {
      assert b >= 0;
      NatToDecimalInjective(a, b);
    }
  }

  /** A needle whose first character never occurs in the haystack is not contained in it. */
  lemma MissingFirstChar(hay: string, needle: string)
    requires needle != []
    requires forall i :: 0 <= i < |hay| ==> hay[i] != needle[0]
    ensures !Contains(hay, needle)
  {
    forall i | OccursAt(hay, needle, i)
      ensures hay[i] == needle[0]
    {
      assert hay[i..i + |needle|][0] == hay[i];
    }
  }

  /** Lower-casing maps a character to `c` only from `c` or its upper-case form. */
  lemma LowerAvoids(s: string, c: char)
    requires 'a' <= c <= 'z'
    requires forall i :: 0 <= i < |s| ==> s[i] != c && s[i] as int != c as int - 32
    ensures forall i :: 0 <= i < |Lower(s)| ==> Lower(s)[i] != c
  {
  }
}

=== FILE: user_store.dfy ===
/**
 * The user service the controllers call, seen as a store of users keyed by
 * id. The service itself (UserService and its repository) is not part of this
 * model; the store has the shape the controllers rely on: `findById`,
 * `findByUsername`, `saveUser`/`updateUser` and `deleteById` over a table
 * whose id is generated on insert and whose username column is unique.
 */
module UserStore {
  import opened Wrappers
  import opened Entity

  /** The message both controllers give when a username is already taken. */
  const DuplicateUsername := "User with this email already exists"

  /** The stored users by id, and the id the database generates for the next insert. */
  datatype Store = Store(users: map<int, User>, nextId: int)

  /** No two stored users share a username (the column is declared unique). */
  predicate UniqueUsernames(s: Store) {
    forall j, k :: j in s.users && k in s.users && s.users[j].username == s.users[k].username ==> j == k
  }

  /** The store is well formed: every user is filed under its own id, every id was
      generated before `nextId`, and usernames are unique. */
  predicate Good(s: Store) {
    && (forall k :: k in s.users ==> k < s.nextId && s.users[k].id == Some(k))
    && UniqueUsernames(s)
  }

  /** `findById(id)`: the user filed under `id`, or null. */
  function FindById(s: Store, id: int): (r: Option<User>)
    ensures r.Some? <==> id in s.users
    ensures r.Some? ==> r.value == s.users[id]
  {
    if id in s.users then Some(s.users[id]) else None
  }

  /** `findByUsername(name) != null`. */
  predicate UsernameTaken(s: Store, name: string) {
    exists k :: k in s.users && s.users[k].username == name
  }

  /** `findByUsername(name)` is non-null and its id differs from `id`. */
  predicate UsernameTakenByOther(s: Store, name: string, id: Option<int>) {
    exists k :: k in s.users && s.users[k].username == name && Some(k) != id
  }

  /** With unique usernames, the lookup finds the one owner of a username, so "taken by
      another" is exactly "the owner's id is not `id`". */
  lemma OwnerLookup(s: Store, name: string, owner: int, id: Option<int>)
    requires Good(s)
    requires owner in s.users && s.users[owner].username == name
    ensures UsernameTaken(s, name)
    ensures UsernameTakenByOther(s, name, id) <==> Some(owner) != id
  {
  }

  /** The result of a save: the user as stored, with its id, and the new store. */
  datatype Saved = Saved(user: User, store: Store)

  /** `saveUser`, with repository `save` semantics: a user whose id is already stored
      replaces that entry; any other user is inserted under a newly generated id. */
  function Save(s: Store, u: User): (r: Saved)
    ensures r.user.id.Some? && r.store.users == s.users[r.user.id.value := r.user]
    ensures r.user == u.(id := r.user.id)
    ensures u.id.Some? && u.id.value in s.users ==> r.user.id == u.id && r.store.nextId == s.nextId
    ensures !(u.id.Some? && u.id.value in s.users) ==> r.user.id == Some(s.nextId) && r.store.nextId == s.nextId + 1
  {
    if u.id.Some? && u.id.value in s.users then
      Saved(u, s.(users := s.users[u.id.value := u]))
    else
      var v := u.(id := Some(s.nextId));
      Saved(v, Store(s.users[s.nextId := v], s.nextId + 1))
  }

  /** Saving a user whose username nobody else owns keeps the store well formed. */
  lemma SavePreservesGood(s: Store, u: User)
    requires Good(s)
    requires !UsernameTakenByOther(s, u.username, u.id)
    ensures Good(Save(s, u).store)
  {
    var r := Save(s, u);
    var k := r.user.id.value;
    forall j | j in r.store.users && j != k
      ensures r.store.users[j].username != u.username
    {
      assert j in s.users && r.store.users[j] == s.users[j];
      if u.id.Some? && u.id.value in s.users {
        assert Some(j) != u.id;
      } else {
        assert u.id.Some? ==> u.id.value !in s.users;
        assert Some(j) != u.id;
      }
    }
  }

  /** `deleteById`: the entry under `id` is gone, if there was one, and nothing else changes. */
  function DeleteById(s: Store, id: int): (s': Store)
    ensures s'.users.Keys == s.users.Keys - {id}
    ensures forall k :: k in s'.users ==> s'.users[k] == s.users[k]
    ensures s'.nextId == s.nextId
  {
    s.(users := s.users - {id})
  }

  /** Deleting keeps the store well formed. */
  lemma DeletePreservesGood(s: Store, id: int)
    requires Good(s)
    ensures Good(DeleteById(s, id))
  {
  }
}

=== FILE: wrappers.dfy ===
/** Optional values: Java's nullable references and JavaScript's null/undefined. */
module Wrappers {

  datatype Option<+T> = None | Some(value: T) {

    /** The value, or a default when absent. */
    function GetOr(default: T): T {
      match this
      case Some(v) => v
      case None => default
    }
  }
}
